=== FILE: README.md ===
# Fitness tracker core, modelled in Dafny

The tracker reads activity records typed by hand. It reports the distance and the calories burnt for each.

The two packages modelled here:

- **spentcalories** handles a training record `"<steps>,<activity>,<duration>"`, for example `"678,Бег,0h5m"`.
  - `parseTraining` splits the record on commas. It expects exactly three fields. It reads the steps with `strconv.Atoi`, accepts only the labels `Бег` (running) and `Ходьба` (walking), and reads the duration with `time.ParseDuration`. Every field is trimmed of white space first.
  - `distance` and `meanSpeed` turn steps and height into kilometres and km/h.
  - `RunningSpentCalories` and `WalkingSpentCalories` are guarded by "all inputs positive". Each computes `coefficient * weight * speed * minutes`.
  - `TrainingInfo` puts the steps together and renders a five-line report.
- **daysteps** handles a day record `"<steps>,<duration>"`.
  - `parsePackage` expects exactly two fields and a positive step count. It rejects a duration that contains none of the letters `s`, `m`, `h`. If `time.ParseDuration` fails, it tries once more with `"0s"` appended.
  - `DayActionInfo` chooses the running formula below 30 minutes and the walking formula otherwise. It wraps a parsing failure or a computing failure in its own context.
  - `formatDayActionInfo` renders three lines.

Go's `(T, error)` pairs are modelled as `Results.Ret<T>`. On failure the value is the zero value. An error is a `Failure` of some kind, possibly `Wrapped` in a context. Three supporting modules model the parts of the Go standard library the core depends on:

- `Strings`: `Split`, `Join`, `TrimSpace`;
- `Strconv`: `Atoi`, `Itoa`, `FormatFloat(x, 'f', 2, 64)`;
- `Durations`: `time.ParseDuration` in full (signs, fractions, every unit, the 1<<63 overflow bounds), plus `Hours` and `Minutes`.

Both pipelines are modelled as two parts: the parse, and the part after it, which works on a parsed record (`SpentCalories.TrainingReport`, `DaySteps.ActionInfo`). `TrainingInfo` and `DayActionInfo` are the two parts in sequence, as in the source.

The module `Scenarios` works records through the model. Five are sample strings of the demo driver, among them `"something is wrong"`. Three more are made up to reach branches the samples miss: `"5,1h3"` (the retry), `"1234,Плавание,10m"` (an unknown label) and `"x,Плавание,10m"` (bad steps and an unknown label together).

The main results:

- **The "0s" retry.** Appending `"0s"` never changes a duration `ParseDuration` already accepts (`Durations.AppendZeroSeconds`). So the direct parse in `parsePackage` decides nothing the retry would not (`DaySteps.ParseDayDurationIsRetry`). The retry only rescues texts such as `"1h3"`, which is read as `"1h30s"` (`Scenarios.DayRetry`).
- **Round trips.** Split and join are inverses (`Strings.JoinSplit`, `Strings.SplitJoin`). `Atoi` reads `Itoa` back (`Strconv.AtoiItoa`). A training record rendered from its parts, with any white space around each field, parses back to those parts (`SpentCalories.ParseTrainingRoundTrip`). Each report splits back into its lines (`SpentCalories.TrainingReportLines`, `DaySteps.ActionInfoSummary`).
- **Durations.** A duration written as components, such as `"2h45m"` or `"1.5s"`, is the sum of their nanoseconds. A `'+'` changes nothing, a `'-'` negates, and a total past the int64 range is rejected (`Durations.ParseDurationValue`).
- **Calories.** The speed formula multiplied by minutes cancels the duration. Once the guard passes, calories are `coefficient * weight * distance * 60` whatever the duration (`SpentCalories.CaloriesIndependentOfDuration`).

**Walking formula.** `WalkingSpentCalories` computes `0.5 * weight * speed * minutes` (internal/spentcalories/spentcalories.go:100), the same shape as the running formula. So the two formulas differ only by their coefficient (`SpentCalories.WalkingIsScaledRunning`).

## Model

| member | source | states |
|---|---|---|
| Strings.Split | internal/spentcalories/spentcalories.go:21 | there is one more piece than separators, and no piece contains the separator |
| Strings.Join | internal/daysteps/daysteps.go:72-76 | no contract of its own; Strings.JoinSplit and Strings.SplitJoin tie it to Split as its inverse |
| Strings.JoinSplit | internal/spentcalories/spentcalories.go:21 | joining the pieces of a split with the separator gives back the original string |
| Strings.SplitJoin | internal/daysteps/daysteps.go:72-76 | separator-free pieces joined by the separator split back into exactly those pieces |
| Strings.SplitWithoutSeparator | internal/daysteps/daysteps.go:19-22 | a text without the separator splits into itself alone |
| Strings.SplitAtFirstSeparator | internal/daysteps/daysteps.go:19 | the first piece of a split ends at the first separator, and the rest is split on its own |
| Strings.SplitTwo | internal/daysteps/daysteps.go:19-20 | two comma-free fields around one comma give exactly those two fields |
| Strings.SplitThree | internal/spentcalories/spentcalories.go:21-22 | three comma-free fields around two commas give exactly those three fields |
| Strings.CountAbsent | internal/spentcalories/spentcalories.go:21-24 | a record without a comma has no separators, so it is a single field |
| Strings.IsSpace | internal/spentcalories/spentcalories.go:26 | no contract of its own: the character set unicode.IsSpace reports (the ASCII controls \t to \r, the space and the other Unicode White_Space characters); TrimLeftDropsSpace and TrimRightDropsSpace state that TrimSpace removes only these |
| Strings.TrimLeft | internal/spentcalories/spentcalories.go:26 | the result is a suffix of the input, and it is empty or starts with a non-space character |
| Strings.TrimRight | internal/spentcalories/spentcalories.go:26 | the result is a prefix of the input, and it is empty or ends with a non-space character |
| Strings.TrimLeftDropsSpace | internal/spentcalories/spentcalories.go:31 | every character in front of the kept suffix is white space, so only white space is removed |
| Strings.TrimRightDropsSpace | internal/spentcalories/spentcalories.go:31 | every character after the kept prefix is white space, so only white space is removed |
| Strings.TrimSpace | internal/daysteps/daysteps.go:24 | the trimmed field starts and ends with a non-space character, and it is no longer than the field |
| Strings.TrimLeftPadded | internal/daysteps/daysteps.go:32 | white space in front of a trimmed text is removed and nothing else is |
| Strings.TrimRightPadded | internal/daysteps/daysteps.go:32 | white space after a trimmed text is removed and nothing else is |
| Strings.TrimSpacePadded | internal/spentcalories/spentcalories.go:31 | any white space around a trimmed text trims back to exactly that text |
| Strings.TrimSpaceIdempotent | internal/spentcalories/spentcalories.go:36 | trimming twice is the same as trimming once |
| Strconv.NatToDigits | internal/daysteps/daysteps.go:73 | the digits denote the number, and there is no leading zero except for 0 |
| Strconv.Itoa | internal/daysteps/daysteps.go:73 | the text is non-empty digits, with a leading '-' exactly for negatives |
| Strconv.Atoi | internal/spentcalories/spentcalories.go:26-29 | an accepted text is an optional sign followed by at least one digit (so a lone sign is rejected), and its value fits in 64 bits |
| Strconv.SignedValue | internal/daysteps/daysteps.go:24-27 | an accepted digit string is non-empty, all digits, and its signed value fits in 64 bits |
| Strconv.AtoiUnsigned | internal/daysteps/daysteps.go:24 | an unsigned digit string is accepted exactly when its value fits in an int64, and then has that value |
| Strconv.AtoiSigned | internal/daysteps/daysteps.go:24 | a '+' or '-' followed by digits is accepted exactly when the signed value fits in an int64, and then has that value |
| Strconv.AtoiItoa | internal/daysteps/daysteps.go:24 | every 64-bit integer rendered by Itoa is read back by Atoi |
| Strconv.AtoiDigits | internal/daysteps/daysteps.go:24-27 | an optionally signed, non-empty digit string is accepted exactly when its value is in the 64-bit range, and then has that value |
| Strconv.RoundHalfEven | internal/daysteps/daysteps.go:74 | the result is within one half of x, and an exact tie goes to the even neighbour |
| Strconv.CentsText | internal/daysteps/daysteps.go:74 | the text is digits with a decimal point three places from the end |
| Strconv.CentsTextValue | internal/daysteps/daysteps.go:74-75 | with the point removed, the digits denote the rendered number of hundredths |
| Strconv.FormatFixed2 | internal/spentcalories/spentcalories.go:78 | two fractional digits after a point, and a leading '-' exactly for negatives |
| Strconv.NoLineBreak | internal/daysteps/daysteps.go:72-76 | neither an integer nor a two-decimal rendering contains a line break |
| Strconv.FormatFixed2Value | internal/spentcalories/spentcalories.go:77-84 | the printed digits, read as hundredths, are within half a hundredth of the magnitude of x |
| Durations.Hours | internal/spentcalories/spentcalories.go:52 | the hours, multiplied back by the nanoseconds in an hour, give the duration, and they are negative exactly when the duration is |
| Durations.Minutes | internal/daysteps/daysteps.go:58 | minutes are 60 times the hours, and below 30 exactly when the duration is below 30 minutes |
| Durations.UnitTable | internal/spentcalories/spentcalories.go:36 | the unit names are exactly ns, us, µs, μs, ms, s, m and h, each with the unit it denotes |
| Durations.LeadingInt | internal/spentcalories/spentcalories.go:36 | the number read stays within 1<<63, and the rest does not start with a digit |
| Durations.LeadingIntValue | internal/spentcalories/spentcalories.go:36 | digits followed by a non-digit are read as the start value shifted by their count plus their value, and the read fails exactly when that passes 1<<63 |
| Durations.LeadingFraction | internal/spentcalories/spentcalories.go:36 | every leading digit is consumed |
| Durations.LeadingFractionRest | internal/spentcalories/spentcalories.go:36 | the fraction digits are consumed up to the first non-digit, whether or not the numerator overflows |
| Durations.LeadingFractionValue | internal/spentcalories/spentcalories.go:36 | while it stays within 1<<63, the numerator is the digits' value after the start value, with one decimal place per digit |
| Durations.ScanNumber | internal/spentcalories/spentcalories.go:36 | an accepted number starts with a digit or a point, and consumes every leading digit |
| Durations.ScanWhole | internal/spentcalories/spentcalories.go:36 | digits followed by neither a digit nor a point are a whole number of their value, rejected past 1<<63 |
| Durations.ScanDecimal | internal/spentcalories/spentcalories.go:36 | digits, a point and digits give the whole part's value, the fraction's value and one place per fraction digit |
| Durations.UnitName | internal/spentcalories/spentcalories.go:36 | the name is made of unit characters (neither digits nor points), the rest is empty or starts with a digit or a point, and the two lengths add up to the input's |
| Durations.UnitNameSplits | internal/spentcalories/spentcalories.go:36 | the unit name followed by the rest is exactly the input |
| Durations.UnitArithmetic | internal/spentcalories/spentcalories.go:36 | scaling by a unit multiplies by the unit's nanoseconds, and Go's overflow test fires exactly when that product passes 1<<63 |
| Durations.ScaleByUnit | internal/spentcalories/spentcalories.go:36-39 | a scaled component has a known unit, stays within 1<<63 and consumes its unit name |
| Durations.FractionNanosValue | internal/spentcalories/spentcalories.go:36 | the fraction contributes its numerator times the unit's nanoseconds over 10^places, rounded down |
| Durations.ScaleByUnitValue | internal/spentcalories/spentcalories.go:36 | a number with a known unit is its whole part times the unit plus the fraction's nanoseconds, rejected past 1<<63 |
| Durations.ParseComponent | internal/spentcalories/spentcalories.go:36-39 | a component starts with a digit or a point, consumes input, stays within 1<<63, and leaves a rest that is empty or starts with a digit or a point |
| Durations.ComponentValue | internal/spentcalories/spentcalories.go:36 | digits and a unit, in front of another component, are the digits' value times the unit, rejected past 1<<63 |
| Durations.DecimalComponentValue | internal/spentcalories/spentcalories.go:36 | digits, a point, digits and a unit are the whole part times the unit plus the fraction's nanoseconds, rejected past 1<<63 |
| Durations.PartValue | internal/spentcalories/spentcalories.go:36 | one written component in front of another is read as its nanoseconds |
| Durations.ParseComponents | internal/spentcalories/spentcalories.go:36-39 | the total only grows, and it stays within 1<<63 |
| Durations.ComponentsValue | internal/spentcalories/spentcalories.go:36 | texts that each read as a value, written one after another, parse to the running total plus the sum of the values, and fail past 1<<63 |
| Durations.ParseComponentsValue | internal/spentcalories/spentcalories.go:36 | written components parse to the running total plus the sum of their nanoseconds, and fail past 1<<63 |
| Durations.ParseDuration | internal/spentcalories/spentcalories.go:36-39 | an accepted duration fits in an int64, and the empty text is rejected; `Durations.AcceptedEndsWithUnit` states which other texts are rejected |
| Durations.AcceptedEndsWithUnit | internal/spentcalories/spentcalories.go:36-39 | an accepted duration is "0", "+0" or "-0", or ends with a unit character, so a trailing number without a unit ("5", "1h3") is rejected |
| Durations.ComponentsEnd | internal/spentcalories/spentcalories.go:36 | a non-empty run of components that parses ends with a unit character |
| Durations.SignedDuration | internal/spentcalories/spentcalories.go:36-39 | the duration after the sign fits in an int64, and an empty body is rejected |
| Durations.SignedComponents | internal/spentcalories/spentcalories.go:36-39 | after a sign, texts that read as values give their sum, negated for '-', rejected past the int64 range |
| Durations.ParseDurationValue | internal/spentcalories/spentcalories.go:36-39 | a duration written as components is the sum of their nanoseconds if that fits an int64; a '+' changes nothing and a '-' negates down to -(1<<63) |
| Durations.LeadingIntAppend | internal/daysteps/daysteps.go:39 | reading digits is not affected by text after the first non-digit |
| Durations.LeadingFractionAppend | internal/daysteps/daysteps.go:39 | reading fraction digits is not affected by text after the first non-digit |
| Durations.UnitNameAppend | internal/daysteps/daysteps.go:39 | a unit name is read the same way when a digit or a point follows it |
| Durations.ScanNumberAppend | internal/daysteps/daysteps.go:39 | a number is read the same way whatever follows its unit |
| Durations.ScaleByUnitAppend | internal/daysteps/daysteps.go:39 | a unit is scaled the same way when a new component follows it |
| Durations.ParseComponentAppend | internal/daysteps/daysteps.go:39 | a component is read the same way when a new component follows it |
| Durations.StepAppend | internal/daysteps/daysteps.go:39 | the first component of x is also the first component of x + y, and parsing of both goes on from its rest |
| Durations.ParseComponentsAppend | internal/daysteps/daysteps.go:39 | the total of x + y is the total of x carried on through y |
| Durations.ZeroSeconds | internal/daysteps/daysteps.go:39 | "0s" adds nothing to a running total |
| Durations.DoubleZeroSeconds | internal/daysteps/daysteps.go:39 | "00s", the bare "0" with "0s" appended, is zero |
| Durations.BodyAppendZeroSeconds | internal/daysteps/daysteps.go:39 | appending "0s" to an unsigned duration body keeps its total |
| Durations.SignedAppendZeroSeconds | internal/daysteps/daysteps.go:39 | appending "0s" after the sign keeps an accepted duration, negated or not |
| Durations.AppendZeroSeconds | internal/daysteps/daysteps.go:37-43 | appending "0s" to any accepted duration gives the same duration, so the retry only changes rejected texts |
| SpentCalories.ParseTraining | internal/spentcalories/spentcalories.go:20-42 | on failure all values are zero; on success the label is Бег or Ходьба and the numbers fit in 64 bits; a wrong field count is reported exactly when the record does not have two commas |
| SpentCalories.CheckFields | internal/spentcalories/spentcalories.go:26-41 | unreadable steps are reported first, then an unknown label, then an unparsable duration, each with its own kind; success exactly when the steps read, the label is known and the duration parses, and then the tuple holds the trimmed fields' values |
| SpentCalories.ParseTrainingFields | internal/spentcalories/spentcalories.go:21-24 | a record of three comma-free fields is judged field by field |
| SpentCalories.StepsCheckedFirst | internal/spentcalories/spentcalories.go:26-29 | bad steps are reported whatever the label and the duration hold |
| SpentCalories.LabelCheckedBeforeDuration | internal/spentcalories/spentcalories.go:31-34 | an unknown label is reported whatever the duration holds |
| SpentCalories.ParseTrainingRoundTrip | internal/spentcalories/spentcalories.go:20-42 | steps, a label and a duration text, each written with any white space around it, parse back to exactly those values |
| SpentCalories.CheckTrimmedFields | internal/spentcalories/spentcalories.go:26-41 | fields that trim to a rendered integer, a known label and a duration text are read as those values |
| SpentCalories.DigitsField | internal/spentcalories/spentcalories.go:26 | rendered steps with white space around them contain no comma and trim back to the rendering |
| SpentCalories.LabelField | internal/spentcalories/spentcalories.go:31 | a label with white space around it contains no comma and trims back to the label |
| SpentCalories.Distance | internal/spentcalories/spentcalories.go:44-46 | the distance is positive for positive steps and height, and zero when either is zero |
| SpentCalories.DistanceAdditiveInSteps | internal/spentcalories/spentcalories.go:44-46 | the distance of a + b steps is the sum of the two distances |
| SpentCalories.DistanceProportionalToHeight | internal/spentcalories/spentcalories.go:44-46 | scaling the height scales the distance by the same factor |
| SpentCalories.MeanSpeed | internal/spentcalories/spentcalories.go:48-53 | the speed is zero for a non-positive duration; otherwise speed times hours is the distance, and it is positive for positive inputs |
| SpentCalories.SpeedTimesMinutes | internal/spentcalories/spentcalories.go:91-92 | speed times minutes is 60 times the distance for every positive duration |
| SpentCalories.SpentCalories | internal/spentcalories/spentcalories.go:87-93 | an error exactly when an input is not positive, and then the value is 0; otherwise the calories are coefficient * weight * distance * 60 and positive |
| SpentCalories.RunningSpentCalories | internal/spentcalories/spentcalories.go:87-93 | an error exactly when steps, weight, height or duration is not positive, and then the value is 0; otherwise 0.029 * weight * distance * 60, which is positive |
| SpentCalories.WalkingSpentCalories | internal/spentcalories/spentcalories.go:95-101 | an error exactly when steps, weight, height or duration is not positive, and then the value is 0; otherwise 0.5 * weight * distance * 60, which is positive |
| SpentCalories.WalkingIsScaledRunning | internal/spentcalories/spentcalories.go:87-101 | the two formulas fail together, and walking is running scaled by 0.5/0.029 |
| SpentCalories.CaloriesIndependentOfDuration | internal/spentcalories/spentcalories.go:91-92 | once the guard passes, the duration does not change the calories |
| SpentCalories.DispatchValue | internal/spentcalories/spentcalories.go:62-66 | for a known label and positive inputs, the chosen formula gives the label's coefficient * weight * distance * 60 |
| SpentCalories.TrainingReport | internal/spentcalories/spentcalories.go:61-84 | every error comes with the empty string; an unknown label is reported as such, and a known label with a non-positive input as invalid parameters; success exactly when the label is known and every input is positive |
| SpentCalories.TrainingInfo | internal/spentcalories/spentcalories.go:55-85 | every error comes with the empty string; parse errors pass through unchanged; success exactly when the record parses and its steps and duration, with the weight and height, are positive |
| SpentCalories.TrainingReportLines | internal/spentcalories/spentcalories.go:61-84 | for a known label and positive inputs the report succeeds and is exactly five lines: the label, then the hours, the distance, the mean speed and the label's calories, each with its caption |
| SpentCalories.TrainingReportCalories | internal/spentcalories/spentcalories.go:62-66 | for a known label and positive inputs, the last line of the report renders coefficient * weight * distance * 60 for the record's label |
| SpentCalories.CaloriesLine | internal/spentcalories/spentcalories.go:83 | the calories line of a valid record's report shows the closed form of its label's formula |
| SpentCalories.TrainingInfoLines | internal/spentcalories/spentcalories.go:55-85 | a successful TrainingInfo is the five-line report on the record it parsed |
| SpentCalories.UnknownActivityOnlyFromParse | internal/spentcalories/spentcalories.go:62-69 | the default branch of the switch is unreachable: an unknown-label error comes only from the parser |
| SpentCalories.NonPositiveParsesButFails | internal/spentcalories/spentcalories.go:56-72 | non-positive steps or duration get past the parser but fail the calorie guard |
| SpentCalories.ReportLines | internal/spentcalories/spentcalories.go:78-83 | no contract of its own: the five captioned lines of the format string; SpentCalories.ReportSplits and SpentCalories.TrainingReportLines state that the report is exactly these lines |
| SpentCalories.Report | internal/spentcalories/spentcalories.go:77-84 | no contract of its own: the lines joined by newlines; SpentCalories.ReportSplits states that the report splits back into them |
| SpentCalories.ReportLinesSingleLine | internal/spentcalories/spentcalories.go:77-84 | no line of the report contains a line break |
| SpentCalories.ReportSplits | internal/spentcalories/spentcalories.go:77-84 | the report splits on newlines into its five captioned lines |
| DaySteps.ParseDayDuration | internal/daysteps/daysteps.go:32-43 | an accepted duration text contains s, m or h, and its value fits in an int64 |
| DaySteps.ParseDayDurationIsRetry | internal/daysteps/daysteps.go:33-43 | the pre-check plus direct parse plus retry amounts to parsing the text with "0s" appended, once it contains s, m or h |
| DaySteps.ParsePackage | internal/daysteps/daysteps.go:18-46 | on failure both values are zero; on success the steps are positive; a wrong field count is reported exactly when the record does not have one comma |
| DaySteps.CheckFields | internal/daysteps/daysteps.go:24-45 | a format error exactly when the steps do not read, a range error exactly when they are not positive; for positive steps a duration-format error when the duration does not parse, and success exactly when it does, with the fields' values |
| DaySteps.ParsePackageFields | internal/daysteps/daysteps.go:19-22 | a record of two comma-free fields is judged field by field |
| DaySteps.BadStepsRejected | internal/daysteps/daysteps.go:24-27 | unreadable steps are reported whatever the duration field holds |
| DaySteps.NonPositiveStepsRejected | internal/daysteps/daysteps.go:28-30 | zero or negative steps are reported whatever the duration field holds |
| DaySteps.HasUnitLetter | internal/daysteps/daysteps.go:33-35 | no contract of its own: the text contains s, m or h; DaySteps.NoUnitLetterRejected and DaySteps.ParseDayDurationIsRetry state its role in the duration check |
| DaySteps.NoUnitLetterRejected | internal/daysteps/daysteps.go:32-35 | a duration without s, m or h is rejected even when ParseDuration would accept it |
| DaySteps.Calories | internal/daysteps/daysteps.go:57-62 | a walk shorter than 30 minutes, counted in nanoseconds, gets the running formula's result; one of 30 minutes or more gets the walking formula's |
| DaySteps.ActionInfo | internal/daysteps/daysteps.go:54-68 | every error comes with the empty string; a formula error is wrapped as a computing failure; a formula success always gives a summary |
| DaySteps.DayActionInfo | internal/daysteps/daysteps.go:48-69 | every error comes with the empty string; parse errors are wrapped as parsing failures and formula errors as computing failures; success exactly when both steps succeed |
| DaySteps.ParseFailureIgnoresCalculator | internal/daysteps/daysteps.go:49-52 | a record that fails to parse never reaches the calculator, and the parser's error kind is kept under the wrapping |
| DaySteps.ShortDayIgnoresWalking | internal/daysteps/daysteps.go:58-59 | for a record below 30 minutes the walking formula has no influence on the result |
| DaySteps.LongDayIgnoresRunning | internal/daysteps/daysteps.go:60-61 | for a record of 30 minutes or more the running formula has no influence on the result |
| DaySteps.SummaryLines | internal/daysteps/daysteps.go:73-75 | no contract of its own: the three captioned lines; DaySteps.SummarySplits states that the summary is exactly these lines |
| DaySteps.FormatDayActionInfo | internal/daysteps/daysteps.go:71-77 | no contract of its own: the lines joined by newlines; DaySteps.SummarySplits and DaySteps.SummaryStepsReadBack state what the text holds |
| DaySteps.SummarySplits | internal/daysteps/daysteps.go:71-77 | the summary splits on newlines into exactly its three captioned lines |
| DaySteps.SummaryStepsReadBack | internal/daysteps/daysteps.go:73 | the first line, stripped of its caption and full stop, reads back as the step count |
| DaySteps.ActionInfoSummary | internal/daysteps/daysteps.go:54-68 | a successful summary shows the record's steps, the calculator's distance and the calories of the formula the duration selects, one per line |
| DaySteps.DayActionInfoSummary | internal/daysteps/daysteps.go:48-69 | a successful DayActionInfo is the three-line summary of the record it parsed |
| Scenarios.RecordTexts | cmd/tracker/main.go:149-184 | the named records spell the driver's samples ",3456", "12:40:00, 3456", ",3456 Ходьба" and "678,Бег,0h5m", and the made-up "5,1h3", "1234,Плавание,10m" and "x,Плавание,10m" |
| Scenarios.ClockIsNoNumber | cmd/tracker/main.go:155 | "12:40:00" is not an integer |
| Scenarios.FiveMinutes | cmd/tracker/main.go:179 | "0h5m" is five minutes |
| Scenarios.HourAndThreeRejected | internal/daysteps/daysteps.go:37-38 | "1h3" is rejected by the direct parse, since its 3 has no unit |
| Scenarios.HourAndThirtySeconds | internal/daysteps/daysteps.go:39 | the retry text "1h30s" is an hour and thirty seconds |
| Scenarios.DayEmptySteps | cmd/tracker/main.go:154 | ",3456" fails on its empty steps field |
| Scenarios.DayClockSteps | cmd/tracker/main.go:155 | "12:40:00, 3456" fails on its steps field |
| Scenarios.DayOneField | cmd/tracker/main.go:156 | "something is wrong" fails on the field count |
| Scenarios.DayRetry | internal/daysteps/daysteps.go:37-45 | "5,1h3" is rescued by the retry as 5 steps over an hour and thirty seconds |
| Scenarios.DayRecordsRejected | cmd/tracker/main.go:154-156 | the three malformed day samples give the wrapped parsing error, whatever the calculator |
| Scenarios.TrainingOneField | cmd/tracker/main.go:178 | "something is wrong" fails on the field count |
| Scenarios.TrainingTwoFields | cmd/tracker/main.go:181 | ",3456 Ходьба" has only two fields and fails on the field count |
| Scenarios.TrainingRun | cmd/tracker/main.go:179 | "678,Бег,0h5m" parses to a five-minute run of 678 steps |
| Scenarios.RunCaloriesText | internal/spentcalories/spentcalories.go:87-93 | the running formula at 678 steps, weight 84.6 and height 1.87 is 0.029 * 84.6 * 0.570537 * 60, printed as "83.99" |
| Scenarios.RunReportText | internal/spentcalories/spentcalories.go:61-84 | a 678-step run at weight 84.6 and height 1.87 reports five lines, the last "Сожгли калорий: 83.99" |
| Scenarios.TrainingRunReported | cmd/tracker/main.go:145-146 | that run yields a five-line report at weight 84.6 and height 1.87 whose last line is "Сожгли калорий: 83.99" |
| Scenarios.TrainingUnknownActivity | internal/spentcalories/spentcalories.go:31-34 | "1234,Плавание,10m" fails on its unknown label |
| Scenarios.TrainingStepsBeforeLabel | internal/spentcalories/spentcalories.go:26-34 | "x,Плавание,10m" reports its bad steps, not its bad label |

## Left out

- Floating point: weight, height, distance, speed, calories, `Hours` and `Minutes` are exact reals, not float64. No rounding error of the source's arithmetic is modelled.
- Strconv.FormatFixed2: it renders the exact real value rounded half to even. Go renders the nearest float64, so renderings of values near a hundredths tie are not modelled exactly.
- Durations.ParseDuration: the fraction part of a component is scaled exactly and floored. Go scales it through a float64, which can differ by a nanosecond for long fractions.
- Durations.ParseDuration: Go's unsigned 64-bit total can wrap when two components of exactly 1<<63 are added. The model adds without wrap-around and rejects that total.
- Durations.ParseDuration: it does not model the text of Go's error messages, only that there is an error.
- Error texts: the messages and `%w` prefixes are modelled as kinds and contexts, not as strings. In daysteps the field-count error and the steps-format error share one message; the model keeps them as two kinds.
- Invalid UTF-8: strings are sequences of Unicode scalar values, so byte-level behaviour on malformed UTF-8 is not modelled.
- Strconv.Atoi: Go's `int` is taken to be 64 bits wide.
- NewSpentCalories and its Distance, RunningCalories and WalkingCalories methods: daysteps calls them, but they are not defined in the package and not part of this model. `DaySteps.Calculator` stands in for them as uninterpreted functions, so every DaySteps property holds whatever they compute.
- The demo driver in cmd/tracker/main.go: printing and logging are not modelled. Its sample records are worked through in `Scenarios`.
- The unused constants `lenStep`, `minInH` (spentcalories) and `stepLength`, `mInKm` (daysteps) are declared and not used by any operation. `DaySteps.StepLength` and `DaySteps.MInKm` keep their values.
- Durations.UnitName: its contract gives the unit characters, where the rest starts and the two lengths. That the name and the rest concatenate to the input is the separate lemma `Durations.UnitNameSplits`: as a postcondition of the function it enters every proof about the parser and makes them far more expensive.
- Durations.LeadingFractionValue: the numerator is stated only while it stays within 1<<63. Past that, Go ignores further digits; `LeadingFraction` does the same, but no lemma gives the value then.
- Durations.ParseDurationValue: it covers only fractions whose digits are worth at most 1<<63, because its value comes from `Durations.LeadingFractionValue`. The same bound limits `Durations.ScanDecimal`, `Durations.DecimalComponentValue`, `Durations.PartValue` (through `Durations.WellSpelled`) and `Durations.ParseComponentsValue`.

=== FILE: daysteps.dfy ===
/** The day-activity pipeline of package daysteps: a record
    "<steps>,<duration>" is parsed, the calories burnt are computed by the
    running formula below 30 minutes and by the walking formula otherwise,
    and a three-line summary is rendered.

    The calorie calculator the package calls (NewSpentCalories with its
    Distance, RunningCalories and WalkingCalories methods) is not part of
    this model; it is a parameter, so every property below holds whatever
    those methods compute. */
module DaySteps {
  import opened Results
  import opened Strings
  import opened Strconv
  import opened Durations

  /** Declared by the package but used by none of its functions. */
  const StepLength: real := 0.65
  const MInKm: real := 1000.0

  /** A parsed day record: steps and duration in nanoseconds. */
  datatype Package = Package(steps: int, duration: int)

  /** The zero pair every failed parse returns. */
  const NoPackage: Package := Package(0, 0)

  /** strings.Contains(ds, "s") || ... "m" || ... "h": the duration text
      names at least one of the units s, m, h (or ms, ns, us). */
  predicate HasUnitLetter(ds: string)
  {
    's' in ds || 'm' in ds || 'h' in ds
  }

  /** The duration step of parsePackage: the unit-letter pre-check, a direct
      parse, and on failure a second parse with "0s" appended. */
  function ParseDayDuration(ds: string): (r: Option<int>)
    ensures r.Some? ==> HasUnitLetter(ds)
    ensures r.Some? ==> MinInt64 <= r.value <= MaxInt64
  {
    if !HasUnitLetter(ds) then None
    else
      match ParseDuration(ds)
      case Some(d) => Some(d)
      case None => ParseDuration(ds + "0s")
  }

  /** The direct attempt never decides anything the retry would not: the
      duration is exactly that of the text with "0s" appended. */
  lemma {:induction false} ParseDayDurationIsRetry(ds: string)
    ensures ParseDayDuration(ds) == if HasUnitLetter(ds) then ParseDuration(ds + "0s") else None
  {
    if HasUnitLetter(ds) && ParseDuration(ds).Some? {
      AppendZeroSeconds(ds);
    }
  }

  /** parsePackage: exactly two comma-separated fields, a positive steps
      integer, then the duration step. */
  function ParsePackage(data: string): (r: Ret<Package>)
    ensures !r.Ok() ==> r.value == NoPackage && r.err.value.Failure?
    ensures r.Ok() ==> r.value.steps > 0
    ensures Count(data, ',') != 1 <==> (!r.Ok() && r.err.value.kind == FieldCount)
  {
    var parts := Split(data, ',');
    if |parts| != 2 then Fail(NoPackage, FieldCount) else CheckFields(parts[0], parts[1])
  }

  /** The checks on the two fields, in the order the source makes them. */
  function CheckFields(p0: string, p1: string): (r: Ret<Package>)
    ensures !r.Ok() ==> r.value == NoPackage && r.err.value.Failure? && r.err.value.kind != FieldCount
    ensures Atoi(TrimSpace(p0)).None? <==> r == Fail(NoPackage, StepsFormat)
    ensures (Atoi(TrimSpace(p0)).Some? && Atoi(TrimSpace(p0)).value <= 0) <==> r == Fail(NoPackage, StepsRange)
    ensures Atoi(TrimSpace(p0)).Some? && Atoi(TrimSpace(p0)).value > 0 && ParseDayDuration(TrimSpace(p1)).None?
      ==> r == Fail(NoPackage, DurationFormat)
    ensures r.Ok() <==>
      Atoi(TrimSpace(p0)).Some? && Atoi(TrimSpace(p0)).value > 0 && ParseDayDuration(TrimSpace(p1)).Some?
    ensures r.Ok() ==> r.value == Package(Atoi(TrimSpace(p0)).value, ParseDayDuration(TrimSpace(p1)).value)
  {
    match Atoi(TrimSpace(p0))
    case None => Fail(NoPackage, StepsFormat)
    case Some(steps) =>
      if steps <= 0 then Fail(NoPackage, StepsRange)
      else
        match ParseDayDuration(TrimSpace(p1))
        case None => Fail(NoPackage, DurationFormat)
        case Some(duration) => Succeed(Package(steps, duration))
  }

  /** A record made of two comma-free fields gets the field-by-field verdict. */
  lemma {:induction false} ParsePackageFields(p0: string, p1: string)
    requires ',' !in p0 && ',' !in p1
    ensures ParsePackage(p0 + "," + p1) == CheckFields(p0, p1)
  {
    SplitTwo(p0, p1, ',');
  }

  /** A steps field that is not an integer is reported first, whatever the
      duration field holds. */
  lemma {:induction false} BadStepsRejected(p0: string, p1: string)
    requires ',' !in p0 && ',' !in p1
    requires Atoi(TrimSpace(p0)).None?
    ensures ParsePackage(p0 + "," + p1) == Fail(NoPackage, StepsFormat)
  {
    ParsePackageFields(p0, p1);
  }

  /** A steps field holding zero or a negative integer is out of range,
      whatever the duration field holds. */
  lemma {:induction false} NonPositiveStepsRejected(p0: string, p1: string)
    requires ',' !in p0 && ',' !in p1
    requires Atoi(TrimSpace(p0)).Some? && Atoi(TrimSpace(p0)).value <= 0
    ensures ParsePackage(p0 + "," + p1) == Fail(NoPackage, StepsRange)
  {
    ParsePackageFields(p0, p1);
  }

  /** A duration text without any of the letters s, m, h is rejected
      whatever ParseDuration would make of it. */
  lemma {:induction false} NoUnitLetterRejected(p0: string, p1: string)
    requires ',' !in p0 && ',' !in p1
    requires Atoi(TrimSpace(p0)).Some? && Atoi(TrimSpace(p0)).value > 0
    requires !HasUnitLetter(TrimSpace(p1))
    ensures ParsePackage(p0 + "," + p1) == Fail(NoPackage, DurationFormat)
  {
    ParsePackageFields(p0, p1);
  }

  /** The calorie calculator the package calls, as opaque functions of the
      steps, weight, height and duration. */
  datatype Calculator = Calculator(
    distance: (int, real) -> real,
    running: (int, real, real, int) -> Ret<real>,
    walking: (int, real, real, int) -> Ret<real>)

  /** The formula DayActionInfo picks: running below 30 minutes. */
  function Calories(sc: Calculator, p: Package, weight: real, height: real): (r: Ret<real>)
    ensures p.duration < 30 * Minute ==> r == sc.running(p.steps, weight, height, p.duration)
    ensures p.duration >= 30 * Minute ==> r == sc.walking(p.steps, weight, height, p.duration)
  {
    if Minutes(p.duration) < 30.0 then sc.running(p.steps, weight, height, p.duration)
    else sc.walking(p.steps, weight, height, p.duration)
  }

  /** The part of DayActionInfo after the parse: the calculator's distance,
      the calories of the formula the duration selects (an error wrapped as
      a computing failure), and the summary. */
  function ActionInfo(p: Package, weight: real, height: real, sc: Calculator): (r: Ret<string>)
    ensures !r.Ok() ==> r.value == ""
    ensures !Calories(sc, p, weight, height).Ok() ==>
      r.err == Some(Wrapped(ComputingCalories, Calories(sc, p, weight, height).err.value))
    ensures Calories(sc, p, weight, height).Ok() ==> r.Ok()
  {
    var distanceKm := sc.distance(p.steps, height);
    var calories := Calories(sc, p, weight, height);
    if !calories.Ok() then Ret("", Some(Wrapped(ComputingCalories, calories.err.value)))
    else Succeed(FormatDayActionInfo(p.steps, distanceKm, calories.value))
  }

  /** DayActionInfo: parse, then summarise the parsed record; a parse error
      is wrapped as a parsing failure beside the empty string. */
  function DayActionInfo(data: string, weight: real, height: real, sc: Calculator): (r: Ret<string>)
    ensures !r.Ok() ==> r.value == ""
    ensures !ParsePackage(data).Ok() ==> r.err == Some(Wrapped(ParsingData, ParsePackage(data).err.value))
    ensures ParsePackage(data).Ok() && !Calories(sc, ParsePackage(data).value, weight, height).Ok() ==>
      r.err == Some(Wrapped(ComputingCalories, Calories(sc, ParsePackage(data).value, weight, height).err.value))
    ensures r.Ok() ==> ParsePackage(data).Ok()
    ensures ParsePackage(data).Ok() ==> r.Ok() == Calories(sc, ParsePackage(data).value, weight, height).Ok()
  {
    var p := ParsePackage(data);
    if !p.Ok() then Ret("", Some(Wrapped(ParsingData, p.err.value)))
    else ActionInfo(p.value, weight, height, sc)
  }

  /** A record that fails to parse never reaches the calculator: any two
      calculators give the same answer. */
  lemma {:induction false} ParseFailureIgnoresCalculator(data: string, weight: real, height: real, sc1: Calculator, sc2: Calculator)
    requires !ParsePackage(data).Ok()
    ensures DayActionInfo(data, weight, height, sc1) == DayActionInfo(data, weight, height, sc2)
    ensures RootKind(DayActionInfo(data, weight, height, sc1).err.value) == ParsePackage(data).err.value.kind
  {
  }

  /** Below 30 minutes the walking formula is never consulted. */
  lemma {:induction false} ShortDayIgnoresWalking(p: Package, weight: real, height: real, sc: Calculator,
                               other: (int, real, real, int) -> Ret<real>)
    requires p.duration < 30 * Minute
    ensures ActionInfo(p, weight, height, sc) == ActionInfo(p, weight, height, sc.(walking := other))
  {
  }

  /** From 30 minutes on the running formula is never consulted. */
  lemma {:induction false} LongDayIgnoresRunning(p: Package, weight: real, height: real, sc: Calculator,
                              other: (int, real, real, int) -> Ret<real>)
    requires p.duration >= 30 * Minute
    ensures ActionInfo(p, weight, height, sc) == ActionInfo(p, weight, height, sc.(running := other))
  {
  }

  /** The three lines of the summary. */
  function SummaryLines(steps: int, distance: real, calories: real): seq<string>
  {
    [ "Количество шагов: " + Itoa(steps) + ".",
      "Дистанция составила " + FormatFixed2(distance) + " км.",
      "Вы сожгли " + FormatFixed2(calories) + " ккал." ]
  }

  /** formatDayActionInfo: the three lines joined by newlines. */
  function FormatDayActionInfo(steps: int, distance: real, calories: real): string
  {
    Join(SummaryLines(steps, distance, calories), '\n')
  }

  /** The summary is exactly three lines, each with its fixed caption. */
  lemma {:induction false} SummarySplits(steps: int, distance: real, calories: real)
    ensures Split(FormatDayActionInfo(steps, distance, calories), '\n') == SummaryLines(steps, distance, calories)
  {
    NoLineBreak(steps, distance);
    NoLineBreak(steps, calories);
    SummaryCaptions();
    WithoutSeparator("Количество шагов: ", Itoa(steps), ".", '\n');
    WithoutSeparator("Дистанция составила ", FormatFixed2(distance), " км.", '\n');
    WithoutSeparator("Вы сожгли ", FormatFixed2(calories), " ккал.", '\n');
    SplitJoin(SummaryLines(steps, distance, calories), '\n');
  }

  /** The fixed text around the summary's values holds no line break. */
  lemma {:induction false} SummaryCaptions()
    ensures '\n' !in "Количество шагов: " && '\n' !in "."
    ensures '\n' !in "Дистанция составила " && '\n' !in " км."
    ensures '\n' !in "Вы сожгли " && '\n' !in " ккал."
  {
  }

  /** The first line of the summary gives the steps back: stripped of its
      caption and full stop it reads as the steps again. */
  lemma {:induction false} SummaryStepsReadBack(steps: int, distance: real, calories: real)
    requires MinInt64 <= steps <= MaxInt64
    ensures var line := Split(FormatDayActionInfo(steps, distance, calories), '\n')[0];
      var caption := "Количество шагов: ";
      |line| > |caption| && line[..|caption|] == caption && line[|line| - 1] == '.'
      && Atoi(line[|caption|..|line| - 1]) == Some(steps)
  {
    SummarySplits(steps, distance, calories);
    Unframe("Количество шагов: ", Itoa(steps), ".");
    AtoiItoa(steps);
  }

  /** A successful summary of a record is its steps, the calculator's
      distance and the calories of the formula its duration selects, one
      per line. */
  lemma {:induction false} ActionInfoSummary(p: Package, weight: real, height: real, sc: Calculator)
    requires ActionInfo(p, weight, height, sc).Ok()
    ensures Split(ActionInfo(p, weight, height, sc).value, '\n')
      == SummaryLines(p.steps, sc.distance(p.steps, height), Calories(sc, p, weight, height).value)
  {
    SummarySplits(p.steps, sc.distance(p.steps, height), Calories(sc, p, weight, height).value);
  }

  /** A successful DayActionInfo is the summary of the record it parsed. */
  lemma {:induction false} DayActionInfoSummary(data: string, weight: real, height: real, sc: Calculator)
    ensures DayActionInfo(data, weight, height, sc).Ok() ==>
      var p := ParsePackage(data).value;
      Split(DayActionInfo(data, weight, height, sc).value, '\n')
        == SummaryLines(p.steps, sc.distance(p.steps, height), Calories(sc, p, weight, height).value)
  {
    if DayActionInfo(data, weight, height, sc).Ok() {
      ActionInfoSummary(ParsePackage(data).value, weight, height, sc);
    }
  }
}

=== FILE: durations.dfy ===
/** Go's time.Duration as a whole number of nanoseconds, with the parser
    time.ParseDuration and the conversions Hours and Minutes.

    The grammar ParseDuration accepts is `[-+]?([0-9]*(\.[0-9]*)?[a-z]+)+`
    with the units ns, us, µs, μs, ms, s, m and h, plus the bare "0". Each
    component's magnitude and the running total are bounded by 1<<63, and a
    positive total must fit in an int64. */
module Durations {
  import opened Results
  import opened Strconv

  const Nanosecond: nat := 1
  const Microsecond: nat := 1000 * Nanosecond
  const Millisecond: nat := 1000 * Microsecond
  const Second: nat := 1000 * Millisecond
  const Minute: nat := 60 * Second
  const Hour: nat := 60 * Minute

  /** 1<<63, the bound on every unsigned intermediate of the parser. */
  const Limit: nat := 0x8000_0000_0000_0000

  /** Duration.Hours: the duration as a (real) number of hours. */
  function Hours(d: int): (h: real)
    ensures h * Hour as real == d as real
    ensures h < 0.0 <==> d < 0
  {
    d as real / Hour as real
  }

  /** Duration.Minutes: the duration as a (real) number of minutes. */
  function Minutes(d: int): (m: real)
    ensures m == 60.0 * Hours(d)
    ensures m < 30.0 <==> d < 30 * Minute
  {
    d as real / Minute as real
  }

  /** The units ParseDuration knows. */
  datatype Unit = Ns | Us | Ms | S | M | H

  /** The unit a unit name denotes: Go's unitMap, looked up by length and
      characters. "us" and both spellings of "µs" are microseconds. */
  function UnitOf(name: string): Option<Unit>
  {
    if |name| == 1 then
      match name[0]
      case 's' => Some(S)
      case 'm' => Some(M)
      case 'h' => Some(H)
      case _ => None
    else if |name| == 2 && name[1] == 's' then
      match name[0]
      case 'n' => Some(Ns)
      case 'u' => Some(Us)
      case '\U{00B5}' => Some(Us)
      case '\U{03BC}' => Some(Us)
      case 'm' => Some(Ms)
      case _ => None
    else None
  }

  /** The names UnitOf knows are exactly the keys of Go's unitMap. */
  lemma {:induction false} UnitTable(name: string)
    ensures UnitOf(name).Some? <==> name in {"ns", "us", "\U{00B5}s", "\U{03BC}s", "ms", "s", "m", "h"}
    ensures UnitOf("ns") == Some(Ns) && UnitOf("us") == Some(Us) && UnitOf("ms") == Some(Ms)
    ensures UnitOf("\U{00B5}s") == Some(Us) && UnitOf("\U{03BC}s") == Some(Us)
    ensures UnitOf("s") == Some(S) && UnitOf("m") == Some(M) && UnitOf("h") == Some(H)
  {
    if |name| == 1 {
      assert name == [name[0]];
    } else if |name| == 2 {
      assert name == [name[0], name[1]];
    }
  }

  /** Nanoseconds per unit. */
  function UnitNanos(u: Unit): (n: nat)
    ensures n >= 1
  {
    match u
    case Ns => Nanosecond
    case Us => Microsecond
    case Ms => Millisecond
    case S => Second
    case M => Minute
    case H => Hour
  }

  /** `v` units in nanoseconds; each case multiplies by a literal, which
      keeps the arithmetic linear. */
  function Times(v: nat, u: Unit): nat
  {
    match u
    case Ns => v
    case Us => v * 1000
    case Ms => v * 1_000_000
    case S => v * 1_000_000_000
    case M => v * 60_000_000_000
    case H => v * 3_600_000_000_000
  }

  /** Go's `v > 1<<63/unit` overflow test, with a literal divisor per unit. */
  function TooMany(v: nat, u: Unit): bool
  {
    match u
    case Ns => v > Limit
    case Us => v > Limit / 1000
    case Ms => v > Limit / 1_000_000
    case S => v > Limit / 1_000_000_000
    case M => v > Limit / 60_000_000_000
    case H => v > Limit / 3_600_000_000_000
  }

  /** `n` divided by 10^k, rounded down. */
  function DivPow10(n: nat, k: nat): nat
    decreases k
  {
    if k == 0 then n else DivPow10(n / 10, k - 1)
  }

  predicate IsUnitChar(c: char)
  {
    c != '.' && !IsDigit(c)
  }

  /** Every character of `s` may belong to a unit name. */
  predicate UnitChars(s: string)
    decreases |s|
  {
    s == "" || (IsUnitChar(s[0]) && UnitChars(s[1..]))
  }

  /** A number read from the front of a string, and the unread rest. */
  datatype Scanned = Scanned(n: nat, rest: string)

  /** Go's leadingInt: the digits at the front of `s` read into `x`, and the
      rest after them; None once the value would pass 1<<63. */
  function LeadingInt(s: string, x: nat): (r: Option<Scanned>)
    requires x <= Limit
    ensures r.Some? ==> r.value.n <= Limit && |r.value.rest| <= |s|
    ensures r.Some? ==> r.value.rest == "" || !IsDigit(r.value.rest[0])
    decreases |s|
  {
    if |s| == 0 || !IsDigit(s[0]) then Some(Scanned(x, s))
    else if x > Limit / 10 then None
    else
      var y := x * 10 + DigitValue(s[0]);
      if y > Limit then None else LeadingInt(s[1..], y)
  }

  /** The digits after a decimal point: the numerator read so far, the
      number of decimal places it spans, and the unread rest. */
  datatype Fraction = Fraction(numerator: nat, places: nat, rest: string)

  /** Go's leadingFraction: every leading digit is consumed, but once the
      numerator would pass 1<<63 the remaining digits are ignored. */
  function LeadingFraction(s: string, x: nat, places: nat, overflow: bool): (r: Fraction)
    ensures |r.rest| <= |s|
    ensures r.rest == "" || !IsDigit(r.rest[0])
    decreases |s|
  {
    if |s| == 0 || !IsDigit(s[0]) then Fraction(x, places, s)
    else if overflow || x > (Limit - 1) / 10 then LeadingFraction(s[1..], x, places, true)
    else
      var y := x * 10 + DigitValue(s[0]);
      if y > Limit then LeadingFraction(s[1..], x, places, true)
      else LeadingFraction(s[1..], y, places + 1, false)
  }

  /** The number in front of a component's unit, and the unread rest. */
  datatype Number = Number(whole: nat, frac: nat, places: nat, rest: string)

  /** `[0-9]*(\.[0-9]*)?` with at least one digit on either side of the point. */
  function ScanNumber(s: string): (r: Option<Number>)
    ensures r.Some? ==> s != "" && (s[0] == '.' || IsDigit(s[0]))
    ensures r.Some? ==> |r.value.rest| <= |s|
    ensures r.Some? ==> r.value.rest == "" || !IsDigit(r.value.rest[0])
  {
    match LeadingInt(s, 0)
    case None => None
    case Some(lead) =>
      var pre := |lead.rest| != |s|;
      if |lead.rest| > 0 && lead.rest[0] == '.' then
        var fr := LeadingFraction(lead.rest[1..], 0, 0, false);
        var post := |fr.rest| != |lead.rest| - 1;
        if !pre && !post then None
        else Some(Number(lead.n, fr.numerator, fr.places, fr.rest))
      else if !pre then None
      else Some(Number(lead.n, 0, 0, lead.rest))
  }

  /** The unit name at the front of `s` (everything before the next digit or
      '.'), and the rest after it. */
  function UnitName(s: string): (r: (string, string))
    ensures UnitChars(r.0)
    ensures r.1 == "" || !IsUnitChar(r.1[0])
    ensures |r.0| + |r.1| == |s|
    decreases |s|
  {
    if |s| == 0 || !IsUnitChar(s[0]) then ("", s)
    else
      var r := UnitName(s[1..]);
      var name := [s[0]] + r.0;
      assert name[0] == s[0] && name[1..] == r.0;
      (name, r.1)
  }

  /** The unit name and the rest after it are `s` cut in two. */
  lemma {:induction false} UnitNameSplits(s: string)
    ensures UnitName(s).0 + UnitName(s).1 == s
    decreases |s|
  {
    if |s| > 0 && IsUnitChar(s[0]) {
      var r := UnitName(s[1..]);
      UnitNameSplits(s[1..]);
      assert UnitName(s) == ([s[0]] + r.0, r.1);
      assert [s[0]] + r.0 + r.1 == [s[0]] + (r.0 + r.1) == s;
    }
  }

  /** One parsed component: its length in nanoseconds and the unread rest. */
  datatype Component = Component(nanos: nat, rest: string)

  /** The unit that follows a number, and the number scaled by it; the
      fractional nanoseconds are computed exactly and rounded down. */
  function ScaleByUnit(num: Number): (r: Option<Component>)
    ensures r.Some? ==> UnitOf(UnitName(num.rest).0).Some? && r.value.rest == UnitName(num.rest).1
    ensures r.Some? ==> |r.value.rest| < |num.rest|
    ensures r.Some? ==> r.value.nanos <= Limit
    ensures r.Some? ==> r.value.rest == "" || !IsUnitChar(r.value.rest[0])
  {
    var (name, rest) := UnitName(num.rest);
    if name == "" then None
    else
      match UnitOf(name)
      case None => None
      case Some(unit) =>
        if TooMany(num.whole, unit) then None
        else
          var w := Times(num.whole, unit)
            + (if num.frac > 0 then DivPow10(Times(num.frac, unit), num.places) else 0);
          if w > Limit then None else Some(Component(w, rest))
  }

  /** One `[0-9]*(\.[0-9]*)?unit` component at the front of `s`. */
  function ParseComponent(s: string): (r: Option<Component>)
    requires s != ""
    ensures r.Some? ==> |r.value.rest| < |s|
    ensures r.Some? ==> r.value.nanos <= Limit
    ensures r.Some? ==> r.value.rest == "" || !IsUnitChar(r.value.rest[0])
    ensures r.Some? ==> s[0] == '.' || IsDigit(s[0])
  {
    match ScanNumber(s)
    case None => None
    case Some(num) => ScaleByUnit(num)
  }

  /** The components of `s`, added to `acc`; None if any is malformed or the
      total passes 1<<63. This is the test of Go's `for s != ""` loop;
      ComponentsFrom is its body. */
  function ParseComponents(s: string, acc: nat): (r: Option<nat>)
    requires acc <= Limit
    ensures r.Some? ==> acc <= r.value <= Limit
    decreases |s|, 2
  {
    if s == "" then Some(acc) else ComponentsFrom(s, acc)
  }

  /** One pass of the loop: the next character must start a number. */
  function ComponentsFrom(s: string, acc: nat): (r: Option<nat>)
    requires acc <= Limit && s != ""
    ensures r.Some? ==> acc <= r.value <= Limit
    decreases |s|, 1
  {
    if !(s[0] == '.' || IsDigit(s[0])) then None else AddComponent(s, acc)
  }

  /** The rest of the pass: read a component, add it, and go on. */
  function AddComponent(s: string, acc: nat): (r: Option<nat>)
    requires acc <= Limit && s != ""
    ensures r.Some? ==> acc <= r.value <= Limit
    decreases |s|, 0
  {
    match ParseComponent(s)
    case None => None
    case Some(c) =>
      if acc + c.nanos > Limit then None else ParseComponents(c.rest, acc + c.nanos)
  }

  /** time.ParseDuration: an optional sign, then the bare "0" or one or
      more components. */
  function ParseDuration(s: string): (r: Option<int>)
    ensures r.Some? ==> MinInt64 <= r.value <= MaxInt64
    ensures s == "" ==> r.None?
  {
    if |s| > 0 && (s[0] == '-' || s[0] == '+') then SignedDuration(s[0] == '-', s[1..])
    else SignedDuration(false, s)
  }

  /** The duration after the sign: the components' total, negated for a
      '-', and rejected when a positive total does not fit an int64. */
  function SignedDuration(negative: bool, body: string): (r: Option<int>)
    ensures r.Some? ==> MinInt64 <= r.value <= MaxInt64
    ensures body == "" ==> r.None?
  {
    if body == "0" then Some(0)
    else if body == "" then None
    else
      match ParseComponents(body, 0)
      case None => None
      case Some(d) =>
        if negative then Some(-(d as int))
        else if d > MaxInt64 then None
        else Some(d)
  }

  // ---- What an accepted text denotes ----

  lemma {:induction false} MulAtLeast(a: nat, b: nat)
    requires b >= 1
    ensures a * b >= a
  {
  }

  /** Digits followed by a non-digit are read in full: `x` shifted by their
      count plus their value, and the read fails exactly when that passes
      1<<63. */
  lemma {:induction false} LeadingIntValue(ds: string, rest: string, x: nat)
    requires x <= Limit && AllDigits(ds)
    requires rest == "" || !IsDigit(rest[0])
    ensures var v := x * Pow10(|ds|) + DecimalValue(ds);
      LeadingInt(ds + rest, x) == if v <= Limit then Some(Scanned(v, rest)) else None
    decreases |ds|
  {
    if ds == "" {
      assert ds + rest == rest;
    } else {
      var v := x * Pow10(|ds|) + DecimalValue(ds);
      var y := ShiftDigit(x, ds);
      if x <= Limit / 10 && y <= Limit {
        IntStep(ds, rest, x);
        LeadingIntValue(ds[1..], rest, y);
        assert v == y * Pow10(|ds[1..]|) + DecimalValue(ds[1..]);
      } else {
        IntOverflow(ds, rest, x);
        assert v > Limit;
      }
    }
  }

  /** One step of LeadingInt while the value stays in range. */
  lemma {:induction false} IntStep(ds: string, rest: string, x: nat)
    requires |ds| >= 1 && IsDigit(ds[0]) && x <= Limit / 10
    requires x * 10 + DigitValue(ds[0]) <= Limit
    ensures LeadingInt(ds + rest, x) == LeadingInt(ds[1..] + rest, x * 10 + DigitValue(ds[0]))
  {
    assert (ds + rest)[0] == ds[0];
    assert (ds + rest)[1..] == ds[1..] + rest;
  }

  /** LeadingInt gives up once the next digit would take it past 1<<63. */
  lemma {:induction false} IntOverflow(ds: string, rest: string, x: nat)
    requires |ds| >= 1 && IsDigit(ds[0]) && x <= Limit
    requires x > Limit / 10 || x * 10 + DigitValue(ds[0]) > Limit
    ensures LeadingInt(ds + rest, x).None?
    ensures x * 10 + DigitValue(ds[0]) > Limit
  {
    assert (ds + rest)[0] == ds[0];
  }

  /** The digits after a point are consumed up to the first non-digit,
      whether or not the numerator overflows. */
  lemma {:induction false} LeadingFractionRest(ds: string, rest: string, x: nat, places: nat, overflow: bool)
    requires AllDigits(ds)
    requires rest == "" || !IsDigit(rest[0])
    ensures LeadingFraction(ds + rest, x, places, overflow).rest == rest
    decreases |ds|
  {
    if ds == "" {
      assert ds + rest == rest;
    } else {
      assert (ds + rest)[0] == ds[0];
      assert (ds + rest)[1..] == ds[1..] + rest;
      var y := x * 10 + DigitValue(ds[0]);
      if overflow || x > (Limit - 1) / 10 || y > Limit {
        LeadingFractionRest(ds[1..], rest, x, places, true);
      } else {
        LeadingFractionRest(ds[1..], rest, y, places + 1, false);
      }
    }
  }

  /** While the numerator stays within 1<<63 it is `x` shifted by the
      digits' count plus their value, with one decimal place per digit. */
  lemma {:induction false} LeadingFractionValue(ds: string, rest: string, x: nat, places: nat)
    requires AllDigits(ds)
    requires rest == "" || !IsDigit(rest[0])
    requires x * Pow10(|ds|) + DecimalValue(ds) <= Limit
    ensures LeadingFraction(ds + rest, x, places, false)
      == Fraction(x * Pow10(|ds|) + DecimalValue(ds), places + |ds|, rest)
    decreases |ds|
  {
    if ds == "" {
      assert ds + rest == rest;
    } else {
      var y := ShiftDigit(x, ds);
      FractionStep(ds, rest, x, places);
      LeadingFractionValue(ds[1..], rest, y, places + 1);
    }
  }

  /** Reading the first digit of `ds` into `x`. */
  lemma {:induction false} ShiftDigit(x: nat, ds: string) returns (y: nat)
    requires |ds| >= 1 && AllDigits(ds)
    ensures AllDigits(ds[1..])
    ensures y == x * 10 + DigitValue(ds[0])
    ensures x * Pow10(|ds|) + DecimalValue(ds) == y * Pow10(|ds| - 1) + DecimalValue(ds[1..])
    ensures y <= x * Pow10(|ds|) + DecimalValue(ds)
  {
    var t := ds[1..];
    assert ds == [ds[0]] + t;
    DecimalValueCons(ds[0], t);
    var p, d := Pow10(|t|), DigitValue(ds[0]);
    y := x * 10 + d;
    assert Pow10(|ds|) == 10 * p;
    ShiftArithmetic(x, d, p, DecimalValue(t));
  }

  lemma {:induction false} ShiftArithmetic(x: nat, d: nat, p: nat, v: nat)
    requires p >= 1
    ensures x * (10 * p) + (d * p + v) == (x * 10 + d) * p + v
    ensures x * 10 + d <= x * (10 * p) + (d * p + v)
  {
    assert x * (10 * p) + d * p == (x * 10 + d) * p;
    MulAtLeast(x * 10 + d, p);
  }

  /** One step of LeadingFraction while the numerator stays in range. */
  lemma {:induction false} FractionStep(ds: string, rest: string, x: nat, places: nat)
    requires |ds| >= 1 && IsDigit(ds[0])
    requires x * 10 + DigitValue(ds[0]) <= Limit
    ensures LeadingFraction(ds + rest, x, places, false)
      == LeadingFraction(ds[1..] + rest, x * 10 + DigitValue(ds[0]), places + 1, false)
  {
    assert (ds + rest)[0] == ds[0];
    assert (ds + rest)[1..] == ds[1..] + rest;
    assert x <= (Limit - 1) / 10;
  }

  /** A whole number followed by neither a digit nor a point. */
  lemma {:induction false} ScanWhole(ds: string, rest: string)
    requires |ds| >= 1 && AllDigits(ds)
    requires rest == "" || (!IsDigit(rest[0]) && rest[0] != '.')
    ensures ScanNumber(ds + rest)
      == if DecimalValue(ds) <= Limit then Some(Number(DecimalValue(ds), 0, 0, rest)) else None
  {
    LeadingIntValue(ds, rest, 0);
  }

  /** A number with a point: the digits after it are the numerator of a
      fraction with one decimal place per digit. */
  lemma {:induction false} ScanDecimal(whole: string, frac: string, rest: string)
    requires AllDigits(whole) && AllDigits(frac) && |whole| + |frac| >= 1
    requires DecimalValue(frac) <= Limit
    requires rest == "" || !IsDigit(rest[0])
    ensures ScanNumber(whole + "." + frac + rest) == if DecimalValue(whole) <= Limit
      then Some(Number(DecimalValue(whole), DecimalValue(frac), |frac|, rest)) else None
  {
    var after := PointText(whole, frac, rest);
    var s := whole + "." + frac + rest;
    var w := DecimalValue(whole);
    assert LeadingInt(s, 0) == if w <= Limit then Some(Scanned(w, after)) else None by {
      LeadingIntValue(whole, after, 0);
      assert 0 * Pow10(|whole|) == 0;
    }
    if w <= Limit {
      var fr := Fraction(DecimalValue(frac), |frac|, rest);
      assert LeadingFraction(after[1..], 0, 0, false) == fr by {
        LeadingFractionValue(frac, rest, 0, 0);
        assert 0 * Pow10(|frac|) == 0;
      }
      ScanPoint(s, Scanned(w, after), fr);
    }
  }

  /** The text from the point on, and the text after the point. */
  lemma {:induction false} PointText(whole: string, frac: string, rest: string) returns (after: string)
    ensures whole + "." + frac + rest == whole + after
    ensures |after| >= 1 && after[0] == '.' && after[1..] == frac + rest
  {
    after := "." + frac + rest;
    assert after[1..] == frac + rest;
  }

  /** ScanNumber once the digits before a point and after it are read. */
  lemma {:induction false} ScanPoint(s: string, lead: Scanned, fr: Fraction)
    requires LeadingInt(s, 0) == Some(lead)
    requires |lead.rest| > 0 && lead.rest[0] == '.'
    requires LeadingFraction(lead.rest[1..], 0, 0, false) == fr
    ensures ScanNumber(s) == if |lead.rest| == |s| && |fr.rest| == |lead.rest| - 1 then None
      else Some(Number(lead.n, fr.numerator, fr.places, fr.rest))
  {
  }

  /** Times is the product with the unit's length, and TooMany is exactly
      the test that this product passes 1<<63. */
  lemma {:induction false} UnitArithmetic(v: nat, u: Unit)
    ensures Times(v, u) == v * UnitNanos(u)
    ensures TooMany(v, u) <==> Times(v, u) > Limit
    ensures Times(v, u) >= v
  {
  }

  lemma {:induction false} Distribute(a: nat, b: nat, q: nat, r: nat)
    ensures a * (b * q + r) == (a * b) * q + a * r
  {
  }

  lemma {:induction false} MulLe(a: nat, x: nat, y: nat)
    requires x <= y
    ensures a * x <= a * y
  {
  }

  lemma {:induction false} MulNonneg(a: nat, b: nat)
    ensures a * b >= 0
  {
  }

  lemma {:induction false} DivUnique(n: nat, d: nat, q: nat, r: nat)
    requires d >= 1 && n == d * q + r && r < d
    ensures n / d == q
  {
    var q', r' := n / d, n % d;
    assert n == d * q' + r' && r' < d;
    if q' > q {
      assert d * (q' - q) == d * q' - d * q;
      MulAtLeast(d, q' - q);
    } else if q' < q {
      assert d * (q - q') == d * q - d * q';
      MulAtLeast(d, q - q');
    }
  }

  lemma {:induction false} DivDiv(n: nat, a: nat, b: nat)
    requires a >= 1 && b >= 1
    ensures n / a / b == n / (a * b)
  {
    var m, r0 := n / a, n % a;
    var q, r := m / b, m % b;
    Regroup(n, a, m, r0, b, q, r);
    RemainderBound(a, b, r, r0);
    DivUnique(n, a * b, q, a * r + r0);
  }

  lemma {:induction false} Regroup(n: nat, a: nat, m: nat, r0: nat, b: nat, q: nat, r: nat)
    requires n == a * m + r0 && m == b * q + r
    ensures n == (a * b) * q + (a * r + r0)
  {
    Distribute(a, b, q, r);
  }

  lemma {:induction false} RemainderBound(a: nat, b: nat, r: nat, r0: nat)
    requires r < b && r0 < a
    ensures a * r + r0 < a * b
  {
    MulLe(a, r, b - 1);
    assert a * (b - 1) == a * b - a;
  }

  /** DivPow10 is division by 10^k. */
  lemma {:induction false} DivPow10Value(n: nat, k: nat)
    ensures DivPow10(n, k) == n / Pow10(k)
    decreases k
  {
    if k > 0 {
      DivPow10Value(n / 10, k - 1);
      DivDiv(n, 10, Pow10(k - 1));
    }
  }

  /** The fraction numerator / 10^places of the unit `u`, in nanoseconds
      rounded down. */
  function FractionNanos(numerator: nat, places: nat, u: Unit): (n: nat)
  {
    DivPow10(Times(numerator, u), places)
  }

  /** FractionNanos is the exact fraction of the unit's length, rounded down. */
  lemma {:induction false} FractionNanosValue(numerator: nat, places: nat, u: Unit)
    ensures FractionNanos(numerator, places, u) == numerator * UnitNanos(u) / Pow10(places)
  {
    UnitArithmetic(numerator, u);
    MulNonneg(numerator, UnitNanos(u));
    DivPow10Value(Times(numerator, u), places);
  }

  lemma {:induction false} ZeroFraction(places: nat, u: Unit)
    ensures FractionNanos(0, places, u) == 0
    decreases places
  {
    if places > 0 {
      ZeroFraction(places - 1, u);
    }
  }

  /** A number followed by a known unit name is the whole units plus the
      fraction of a unit rounded down; it fails exactly when the whole units
      or the sum pass 1<<63. */
  lemma {:induction false} ScaleByUnitValue(num: Number, name: string, rest: string, u: Unit)
    requires UnitName(num.rest) == (name, rest) && UnitOf(name) == Some(u)
    ensures var whole := Times(num.whole, u);
      var nanos := whole + FractionNanos(num.frac, num.places, u);
      ScaleByUnit(num) == if whole <= Limit && nanos <= Limit then Some(Component(nanos, rest)) else None
  {
    ScaleStep(num, name, rest, u);
    UnitArithmetic(num.whole, u);
    ZeroFraction(num.places, u);
  }

  /** ScaleByUnit once the unit name is known. */
  lemma {:induction false} ScaleStep(num: Number, name: string, rest: string, u: Unit)
    requires UnitName(num.rest) == (name, rest) && UnitOf(name) == Some(u)
    ensures ScaleByUnit(num) == if TooMany(num.whole, u) then None
      else
        var w := Times(num.whole, u) + (if num.frac > 0 then DivPow10(Times(num.frac, u), num.places) else 0);
        if w > Limit then None else Some(Component(w, rest))
  {
    assert name != "";
  }

  /** A known unit name is made of unit characters, so it is read whole
      when a digit, a point or nothing follows it. */
  lemma {:induction false} UnitNameOf(name: string, t: string, u: Unit)
    requires UnitOf(name) == Some(u) && StartsComponent(t)
    ensures name != "" && !IsDigit(name[0]) && name[0] != '.'
    ensures UnitName(name + t) == (name, t)
  {
    assert 1 <= |name| <= 2 && IsUnitChar(name[0]) && (|name| == 2 ==> IsUnitChar(name[1]));
    assert UnitChars(name[1..]) by {
      if |name| == 2 {
        assert name[1..][0] == name[1] && name[1..][1..] == "";
      }
    }
    UnitNameWhole(name, t);
  }

  lemma {:induction false} UnitNameWhole(name: string, t: string)
    requires UnitChars(name)
    requires StartsComponent(t)
    ensures UnitName(name + t) == (name, t)
    decreases |name|
  {
    if name == "" {
      assert name + t == t;
    } else {
      assert (name + t)[0] == name[0];
      assert (name + t)[1..] == name[1..] + t;
      UnitNameWhole(name[1..], t);
      assert [name[0]] + name[1..] == name;
    }
  }

  /** A whole number followed by a unit name is that many units, and the
      text after the name is left unread. */
  lemma {:induction false} ComponentValue(ds: string, name: string, t: string, u: Unit)
    requires |ds| >= 1 && AllDigits(ds) && UnitOf(name) == Some(u)
    requires StartsComponent(t)
    ensures var nanos := Times(DecimalValue(ds), u);
      ParseComponent(ds + name + t) == if nanos <= Limit then Some(Component(nanos, t)) else None
  {
    UnitArithmetic(DecimalValue(ds), u);
    if Times(DecimalValue(ds), u) <= Limit {
      WholeInRange(ds, name, t, u);
    } else {
      WholeOverflows(ds, name, t, u);
    }
  }

  lemma {:induction false} WholeInRange(ds: string, name: string, t: string, u: Unit)
    requires |ds| >= 1 && AllDigits(ds) && UnitOf(name) == Some(u)
    requires StartsComponent(t)
    requires Times(DecimalValue(ds), u) <= Limit
    ensures ParseComponent(ds + name + t) == Some(Component(Times(DecimalValue(ds), u), t))
  {
    UnitNameOf(name, t, u);
    var s := Concat3(ds, name, t);
    UnitArithmetic(DecimalValue(ds), u);
    ScanWhole(ds, name + t);
    ZeroFraction(0, u);
    ScaledComponent(s, Number(DecimalValue(ds), 0, 0, name + t), name, t, u);
  }

  lemma {:induction false} WholeOverflows(ds: string, name: string, t: string, u: Unit)
    requires |ds| >= 1 && AllDigits(ds) && UnitOf(name) == Some(u)
    requires StartsComponent(t)
    requires Times(DecimalValue(ds), u) > Limit
    ensures ParseComponent(ds + name + t).None?
  {
    UnitNameOf(name, t, u);
    var s := Concat3(ds, name, t);
    ScanWhole(ds, name + t);
    if DecimalValue(ds) <= Limit {
      ScaledComponent(s, Number(DecimalValue(ds), 0, 0, name + t), name, t, u);
    } else {
      NoNumber(s);
    }
  }

  /** A number with a point followed by a unit name is the whole units plus
      the fraction of a unit, rounded down to a nanosecond. */
  lemma {:induction false} DecimalComponentValue(whole: string, frac: string, name: string, t: string, u: Unit)
    requires AllDigits(whole) && AllDigits(frac) && |whole| + |frac| >= 1
    requires DecimalValue(frac) <= Limit
    requires UnitOf(name) == Some(u) && StartsComponent(t)
    ensures var nanos := Times(DecimalValue(whole), u) + FractionNanos(DecimalValue(frac), |frac|, u);
      ParseComponent(whole + "." + frac + name + t) == if nanos <= Limit then Some(Component(nanos, t)) else None
  {
    UnitArithmetic(DecimalValue(whole), u);
    if DecimalValue(whole) <= Limit {
      DecimalInRange(whole, frac, name, t, u, Times(DecimalValue(whole), u) + FractionNanos(DecimalValue(frac), |frac|, u));
    } else {
      DecimalOverflows(whole, frac, name, t, u);
    }
  }

  lemma {:induction false} DecimalInRange(whole: string, frac: string, name: string, t: string, u: Unit, nanos: nat)
    requires AllDigits(whole) && AllDigits(frac) && |whole| + |frac| >= 1
    requires DecimalValue(frac) <= Limit && DecimalValue(whole) <= Limit
    requires UnitOf(name) == Some(u) && StartsComponent(t)
    requires nanos == Times(DecimalValue(whole), u) + FractionNanos(DecimalValue(frac), |frac|, u)
    ensures ParseComponent(whole + "." + frac + name + t) == if nanos <= Limit then Some(Component(nanos, t)) else None
  {
    var s := whole + "." + frac + name + t;
    var num := Number(DecimalValue(whole), DecimalValue(frac), |frac|, name + t);
    assert ParseComponent(s) == if nanos <= Limit then Some(Component(nanos, t)) else None by {
      DecimalScan(whole, frac, name, t);
      UnitNameOf(name, t, u);
      ScaledComponent(s, num, name, t, u);
    }
  }

  /** The number in front of a decimal component is read up to its unit name. */
  lemma {:induction false} DecimalScan(whole: string, frac: string, name: string, t: string)
    requires AllDigits(whole) && AllDigits(frac) && |whole| + |frac| >= 1
    requires DecimalValue(frac) <= Limit && DecimalValue(whole) <= Limit
    requires name != "" && !IsDigit(name[0])
    ensures var s := whole + "." + frac + name + t;
      s != "" && (s[0] == '.' || IsDigit(s[0]))
      && ScanNumber(s) == Some(Number(DecimalValue(whole), DecimalValue(frac), |frac|, name + t))
  {
    var s := Concat3(whole + "." + frac, name, t);
    ScanDecimal(whole, frac, name + t);
    if whole != "" {
      assert (whole + "." + frac)[0] == whole[0];
    }
  }

  lemma {:induction false} DecimalOverflows(whole: string, frac: string, name: string, t: string, u: Unit)
    requires AllDigits(whole) && AllDigits(frac) && |whole| + |frac| >= 1
    requires DecimalValue(frac) <= Limit && DecimalValue(whole) > Limit
    requires UnitOf(name) == Some(u) && StartsComponent(t)
    ensures ParseComponent(whole + "." + frac + name + t).None?
  {
    var s := Concat3(whole + "." + frac, name, t);
    ScanDecimal(whole, frac, name + t);
    NoNumber(s);
  }

  /** ParseComponent once the number in front is read and its unit is known. */
  lemma {:induction false} ScaledComponent(s: string, num: Number, name: string, t: string, u: Unit)
    requires s != "" && (s[0] == '.' || IsDigit(s[0]))
    requires ScanNumber(s) == Some(num)
    requires UnitName(num.rest) == (name, t) && UnitOf(name) == Some(u)
    ensures var nanos := Times(num.whole, u) + FractionNanos(num.frac, num.places, u);
      ParseComponent(s) == if nanos <= Limit then Some(Component(nanos, t)) else None
  {
    ScaleByUnitValue(num, name, t, u);
  }

  lemma {:induction false} NoNumber(s: string)
    requires s != "" && ScanNumber(s).None?
    ensures ParseComponent(s).None?
  {
  }

  lemma {:induction false} Concat3(a: string, b: string, c: string) returns (s: string)
    ensures s == a + b + c == a + (b + c)
    ensures a != "" ==> s[0] == a[0]
  {
    s := a + b + c;
  }

  /** One component as written: a whole part, an optional point with a
      fraction, and a unit name. */
  datatype Part = Part(whole: string, frac: Option<string>, name: string)

  predicate WellSpelled(p: Part)
  {
    AllDigits(p.whole) && UnitOf(p.name).Some?
    && match p.frac
       case None => |p.whole| >= 1
       case Some(f) => AllDigits(f) && |p.whole| + |f| >= 1 && DecimalValue(f) <= Limit
  }

  predicate AllWellSpelled(ps: seq<Part>)
  {
    forall i :: 0 <= i < |ps| ==> WellSpelled(ps[i])
  }

  /** The text of a component. */
  function PartText(p: Part): (s: string)
    requires WellSpelled(p)
    ensures |s| >= 2 && !IsUnitChar(s[0])
  {
    var number := match p.frac
      case None => p.whole
      case Some(f) => p.whole + "." + f;
    number + p.name
  }

  /** The nanoseconds a component denotes, fractions of a nanosecond dropped. */
  function PartNanos(p: Part): nat
    requires WellSpelled(p)
  {
    var u := UnitOf(p.name).value;
    match p.frac
    case None => Times(DecimalValue(p.whole), u)
    case Some(f) => Times(DecimalValue(p.whole), u) + FractionNanos(DecimalValue(f), |f|, u)
  }

  /** Components written one after another. */
  function Spell(ps: seq<Part>): (s: string)
    requires AllWellSpelled(ps)
    ensures StartsComponent(s)
    ensures |s| >= 2 * |ps|
  {
    if ps == [] then "" else PartText(ps[0]) + Spell(ps[1..])
  }

  /** The sum of the components' nanoseconds. */
  function PartsTotal(ps: seq<Part>): nat
    requires AllWellSpelled(ps)
  {
    if ps == [] then 0 else PartNanos(ps[0]) + PartsTotal(ps[1..])
  }

  /** One component followed by more components is read as its value. */
  lemma {:induction false} PartValue(p: Part, t: string)
    requires WellSpelled(p) && StartsComponent(t)
    ensures ParseComponent(PartText(p) + t)
      == if PartNanos(p) <= Limit then Some(Component(PartNanos(p), t)) else None
  {
    var u := UnitOf(p.name).value;
    match p.frac
    case None =>
      ComponentValue(p.whole, p.name, t, u);
    case Some(f) =>
      assert PartText(p) + t == p.whole + "." + f + p.name + t;
      DecimalComponentValue(p.whole, f, p.name, t, u);
  }

  /** `x` is the text of one component worth `v`: in front of anything that
      starts another component, reading it adds `v` to the running total. */
  ghost predicate ReadsAs(x: string, v: nat)
  {
    |x| >= 2 && !IsUnitChar(x[0])
    && forall t: string, acc: nat :: StartsComponent(t) && acc <= Limit ==>
         ParseComponents(x + t, acc) == if acc + v <= Limit then ParseComponents(t, acc + v) else None
  }

  /** Texts written one after another. */
  function Concat(xs: seq<string>): string
  {
    if xs == [] then "" else xs[0] + Concat(xs[1..])
  }

  function Sum(vs: seq<nat>): nat
  {
    if vs == [] then 0 else vs[0] + Sum(vs[1..])
  }

  ghost predicate AllReadAs(xs: seq<string>, vs: seq<nat>)
  {
    |xs| == |vs| && forall i :: 0 <= i < |xs| ==> ReadsAs(xs[i], vs[i])
  }

  lemma {:induction false} ConcatStarts(xs: seq<string>, vs: seq<nat>)
    requires AllReadAs(xs, vs)
    ensures StartsComponent(Concat(xs))
    ensures |Concat(xs)| >= 2 * |xs|
  {
    if xs != [] {
      assert ReadsAs(xs[0], vs[0]) && AllReadAs(xs[1..], vs[1..]);
      ConcatStarts(xs[1..], vs[1..]);
      assert Concat(xs) == xs[0] + Concat(xs[1..]);
    }
  }

  /** Components read one after another add up to their sum, and the parse
      fails exactly when the running total passes 1<<63. */
  lemma {:induction false} ComponentsValue(xs: seq<string>, vs: seq<nat>, acc: nat)
    requires AllReadAs(xs, vs) && acc <= Limit
    ensures ParseComponents(Concat(xs), acc) == if acc + Sum(vs) <= Limit then Some(acc + Sum(vs)) else None
    decreases |xs|
  {
    if xs == [] {
      assert Concat(xs) == "" && Sum(vs) == 0;
    } else {
      var x, v, rest, later := xs[0], vs[0], xs[1..], vs[1..];
      var s, t := Concat(xs), Concat(rest);
      assert s == x + t && Sum(vs) == v + Sum(later);
      assert AllReadAs(rest, later) && StartsComponent(t) by {
        ConcatStarts(rest, later);
      }
      ReadStep(x, v, s, t, acc);
      if acc + v <= Limit {
        ComponentsValue(rest, later, acc + v);
        assert acc + v + Sum(later) == acc + Sum(vs);
      } else {
        assert acc + Sum(vs) > Limit;
      }
    }
  }

  /** Reading a component worth `v` in front of the text `t`. */
  lemma {:induction false} ReadStep(x: string, v: nat, s: string, t: string, acc: nat)
    requires ReadsAs(x, v) && StartsComponent(t) && s == x + t && acc <= Limit
    ensures ParseComponents(s, acc) == if acc + v <= Limit then ParseComponents(t, acc + v) else None
  {
  }

  /** One or more components after an optional sign: their sum, negated after
      a '-', and an error exactly when it does not fit an int64 (for '-',
      when it passes 1<<63). */
  lemma {:induction false} SignedComponents(negative: bool, xs: seq<string>, vs: seq<nat>)
    requires |xs| >= 1 && AllReadAs(xs, vs)
    ensures SignedDuration(negative, Concat(xs)) ==
      if negative then (if Sum(vs) <= Limit then Some(-(Sum(vs) as int)) else None)
      else if Sum(vs) <= MaxInt64 then Some(Sum(vs)) else None
  {
    var s, total := Concat(xs), Sum(vs);
    assert |s| >= 2 && ParseComponents(s, 0) == if total <= Limit then Some(total) else None by {
      ConcatStarts(xs, vs);
      ComponentsValue(xs, vs, 0);
    }
    assert s != "0" && s != "" by {
      assert |"0"| == 1;
    }
  }

  /** A well-spelled component reads as its value. */
  lemma {:induction false} PartReads(p: Part)
    requires WellSpelled(p)
    ensures ReadsAs(PartText(p), PartNanos(p))
  {
    forall t: string, acc: nat | StartsComponent(t) && acc <= Limit
      ensures ParseComponents(PartText(p) + t, acc)
        == if acc + PartNanos(p) <= Limit then ParseComponents(t, acc + PartNanos(p)) else None
    {
      PartStep(p, t, acc);
    }
  }

  /** Reading one component in front of more adds its value to the total. */
  lemma {:induction false} PartStep(p: Part, t: string, acc: nat)
    requires WellSpelled(p) && StartsComponent(t) && acc <= Limit
    ensures ParseComponents(PartText(p) + t, acc)
      == if acc + PartNanos(p) <= Limit then ParseComponents(t, acc + PartNanos(p)) else None
  {
    var s, v := PartText(p) + t, PartNanos(p);
    PartValue(p, t);
    if v <= Limit {
      ComponentsStep(s, acc, Component(v, t));
    } else {
      ComponentsStop(s, acc);
    }
  }

  function Texts(ps: seq<Part>): (xs: seq<string>)
    requires AllWellSpelled(ps)
    ensures |xs| == |ps|
    ensures forall i :: 0 <= i < |ps| ==> xs[i] == PartText(ps[i])
  {
    if ps == [] then [] else [PartText(ps[0])] + Texts(ps[1..])
  }

  function Values(ps: seq<Part>): (vs: seq<nat>)
    requires AllWellSpelled(ps)
    ensures |vs| == |ps|
    ensures forall i :: 0 <= i < |ps| ==> vs[i] == PartNanos(ps[i])
  {
    if ps == [] then [] else [PartNanos(ps[0])] + Values(ps[1..])
  }

  /** Spelled-out components are components that read as their values. */
  lemma {:induction false} PartsReadAs(ps: seq<Part>)
    requires AllWellSpelled(ps)
    ensures AllReadAs(Texts(ps), Values(ps))
    ensures Concat(Texts(ps)) == Spell(ps) && Sum(Values(ps)) == PartsTotal(ps)
    decreases |ps|
  {
    forall i | 0 <= i < |ps|
      ensures ReadsAs(Texts(ps)[i], Values(ps)[i])
    {
      PartReads(ps[i]);
    }
    if ps != [] {
      PartsReadAs(ps[1..]);
      assert Texts(ps)[1..] == Texts(ps[1..]) && Values(ps)[1..] == Values(ps[1..]);
    }
  }

  /** The components of a spelled-out text add up to their total. */
  lemma {:induction false} ParseComponentsValue(ps: seq<Part>, acc: nat)
    requires AllWellSpelled(ps) && acc <= Limit
    ensures ParseComponents(Spell(ps), acc)
      == if acc + PartsTotal(ps) <= Limit then Some(acc + PartsTotal(ps)) else None
  {
    PartsReadAs(ps);
    ComponentsValue(Texts(ps), Values(ps), acc);
  }

  /** What ParseDuration makes of a text of one or more components: their
      total, negated after a '-', and an error exactly when the total does
      not fit an int64 (for '-', when it passes 1<<63). */
  lemma {:induction false} ParseDurationValue(ps: seq<Part>)
    requires |ps| >= 1 && AllWellSpelled(ps)
    ensures ParseDuration(Spell(ps)) == if PartsTotal(ps) <= MaxInt64 then Some(PartsTotal(ps)) else None
    ensures ParseDuration("+" + Spell(ps)) == ParseDuration(Spell(ps))
    ensures ParseDuration("-" + Spell(ps)) == if PartsTotal(ps) <= Limit then Some(-(PartsTotal(ps) as int)) else None
  {
    var s := Spell(ps);
    PartsReadAs(ps);
    SignedComponents(false, Texts(ps), Values(ps));
    SignedComponents(true, Texts(ps), Values(ps));
    assert ParseDuration(s) == SignedDuration(false, s);
    assert ParseDuration("+" + s) == SignedDuration(false, s) by {
      assert ("+" + s)[0] == '+' && ("+" + s)[1..] == s;
    }
    assert ParseDuration("-" + s) == SignedDuration(true, s) by {
      assert ("-" + s)[0] == '-' && ("-" + s)[1..] == s;
    }
  }

  // ---- What an accepted text ends with ----

  /** `t` is the last |t| characters of `s`. */
  predicate EndsWith(s: string, t: string)
  {
    |t| <= |s| && s[|s| - |t|..] == t
  }

  lemma {:induction false} EndsWithTrans(s: string, t: string, u: string)
    requires EndsWith(s, t) && EndsWith(t, u)
    ensures EndsWith(s, u)
  {
    assert s[|s| - |u|..] == s[|s| - |t|..][|t| - |u|..];
  }

  lemma {:induction false} EndsWithTail(s: string)
    requires s != ""
    ensures EndsWith(s, s[1..])
  {
  }

  /** What LeadingInt leaves unread is the end of its input. */
  lemma {:induction false} LeadingIntSuffix(s: string, x: nat)
    requires x <= Limit && LeadingInt(s, x).Some?
    ensures EndsWith(s, LeadingInt(s, x).value.rest)
    decreases |s|
  {
    if |s| > 0 && IsDigit(s[0]) {
      var y := x * 10 + DigitValue(s[0]);
      LeadingIntSuffix(s[1..], y);
      EndsWithTail(s);
      EndsWithTrans(s, s[1..], LeadingInt(s, x).value.rest);
    } else {
      assert s[|s| - |s|..] == s;
    }
  }

  /** What LeadingFraction leaves unread is the end of its input. */
  lemma {:induction false} LeadingFractionSuffix(s: string, x: nat, places: nat, overflow: bool)
    ensures EndsWith(s, LeadingFraction(s, x, places, overflow).rest)
    decreases |s|
  {
    var rest := LeadingFraction(s, x, places, overflow).rest;
    if |s| > 0 && IsDigit(s[0]) {
      var y := x * 10 + DigitValue(s[0]);
      if overflow || x > (Limit - 1) / 10 || y > Limit {
        LeadingFractionSuffix(s[1..], x, places, true);
      } else {
        LeadingFractionSuffix(s[1..], y, places + 1, false);
      }
      EndsWithTail(s);
      EndsWithTrans(s, s[1..], rest);
    } else {
      assert s[|s| - |s|..] == s;
    }
  }

  /** What ScanNumber leaves unread is the end of its input. */
  lemma {:induction false} ScanNumberSuffix(s: string)
    requires ScanNumber(s).Some?
    ensures EndsWith(s, ScanNumber(s).value.rest)
  {
    var lead := LeadingInt(s, 0).value;
    LeadingIntSuffix(s, 0);
    if |lead.rest| > 0 && lead.rest[0] == '.' {
      LeadingFractionSuffix(lead.rest[1..], 0, 0, false);
      EndsWithTail(lead.rest);
      EndsWithTrans(lead.rest, lead.rest[1..], ScanNumber(s).value.rest);
      EndsWithTrans(s, lead.rest, ScanNumber(s).value.rest);
    }
  }

  /** A non-empty string of unit characters ends with one. */
  lemma {:induction false} UnitCharsLast(name: string)
    requires name != "" && UnitChars(name)
    ensures IsUnitChar(name[|name| - 1])
    decreases |name|
  {
    if |name| > 1 {
      UnitCharsLast(name[1..]);
    }
  }

  /** A component ends with its unit name: the character before what it
      leaves unread is a unit character. */
  lemma {:induction false} ComponentEnd(s: string)
    requires s != "" && ParseComponent(s).Some?
    ensures var c := ParseComponent(s).value;
      EndsWith(s, c.rest) && |c.rest| < |s| && IsUnitChar(s[|s| - |c.rest| - 1])
  {
    var num := ScanNumber(s).value;
    var c := ParseComponent(s).value;
    var (name, rest) := UnitName(num.rest);
    ScanNumberSuffix(s);
    UnitNameSplits(num.rest);
    assert c.rest == rest && name != "";
    UnitCharsLast(name);
    assert num.rest[|name| - 1] == name[|name| - 1];
    assert s[|s| - |num.rest|..] == num.rest;
    assert s[|s| - |rest| - 1] == num.rest[|name| - 1];
    assert s[|s| - |rest|..] == num.rest[|name|..] == rest;
  }

  /** Accepted components end with a unit character. */
  lemma {:induction false} ComponentsEnd(s: string, acc: nat)
    requires acc <= Limit && s != "" && ParseComponents(s, acc).Some?
    ensures IsUnitChar(s[|s| - 1])
    decreases |s|
  {
    assert s[0] == '.' || IsDigit(s[0]);
    assert ParseComponents(s, acc) == AddComponent(s, acc);
    var c := ParseComponent(s).value;
    ComponentEnd(s);
    if c.rest != "" {
      assert ParseComponents(c.rest, acc + c.nanos).Some?;
      ComponentsEnd(c.rest, acc + c.nanos);
      assert s[|s| - 1] == c.rest[|c.rest| - 1];
    }
  }

  /** Every duration ParseDuration accepts is the bare zero, signed or not,
      or ends with a unit character: a trailing number without a unit, as
      in "5" or "1h3", is rejected. */
  lemma {:induction false} AcceptedEndsWithUnit(s: string)
    ensures ParseDuration(s).Some? ==> s == "0" || s == "+0" || s == "-0" || IsUnitChar(s[|s| - 1])
  {
    if ParseDuration(s).Some? {
      var signed := |s| > 0 && (s[0] == '-' || s[0] == '+');
      var body := if signed then s[1..] else s;
      assert SignedDuration(signed && s[0] == '-', body).Some?;
      if body == "0" {
        if signed {
          assert s == [s[0]] + body;
        }
      } else {
        assert ParseComponents(body, 0).Some?;
        ComponentsEnd(body, 0);
        assert s[|s| - 1] == body[|body| - 1];
      }
    }
  }

  // ---- Appending more components ----

  /** A string that may follow a complete component without merging into its
      unit name: empty, or starting with a digit or '.'. */
  predicate StartsComponent(t: string)
  {
    t == "" || !IsUnitChar(t[0])
  }

  lemma {:induction false} LeadingIntAppend(x: string, y: string, acc: nat)
    requires acc <= Limit
    requires LeadingInt(x, acc).Some? && LeadingInt(x, acc).value.rest != ""
    ensures LeadingInt(x + y, acc) == Some(LeadingInt(x, acc).value.(rest := LeadingInt(x, acc).value.rest + y))
    decreases |x|
  {
    assert (x + y)[0] == x[0];
    if IsDigit(x[0]) {
      assert (x + y)[1..] == x[1..] + y;
      LeadingIntAppend(x[1..], y, acc * 10 + DigitValue(x[0]));
    }
  }

  lemma {:induction false} LeadingFractionAppend(x: string, y: string, acc: nat, places: nat, overflow: bool)
    requires LeadingFraction(x, acc, places, overflow).rest != ""
    ensures LeadingFraction(x + y, acc, places, overflow)
      == LeadingFraction(x, acc, places, overflow).(rest := LeadingFraction(x, acc, places, overflow).rest + y)
    decreases |x|
  {
    assert (x + y)[0] == x[0];
    if IsDigit(x[0]) {
      assert (x + y)[1..] == x[1..] + y;
      var y0 := acc * 10 + DigitValue(x[0]);
      if overflow || acc > (Limit - 1) / 10 || y0 > Limit {
        LeadingFractionAppend(x[1..], y, acc, places, true);
      } else {
        LeadingFractionAppend(x[1..], y, y0, places + 1, false);
      }
    }
  }

  lemma {:induction false} UnitNameAppend(x: string, y: string)
    requires UnitName(x).1 != "" || StartsComponent(y)
    ensures UnitName(x + y) == (UnitName(x).0, UnitName(x).1 + y)
    decreases |x|
  {
    if |x| == 0 {
      assert x + y == y;
    } else {
      assert (x + y)[0] == x[0];
      if IsUnitChar(x[0]) {
        assert (x + y)[1..] == x[1..] + y;
        UnitNameAppend(x[1..], y);
      }
    }
  }

  lemma {:induction false} ScanNumberAppend(x: string, y: string)
    requires ScanNumber(x).Some? && ScanNumber(x).value.rest != ""
    ensures ScanNumber(x + y) == Some(ScanNumber(x).value.(rest := ScanNumber(x).value.rest + y))
  {
    var lead := LeadingInt(x, 0).value;
    LeadingIntAppend(x, y, 0);
    if lead.rest[0] == '.' {
      assert (lead.rest + y)[1..] == lead.rest[1..] + y;
      LeadingFractionAppend(lead.rest[1..], y, 0, 0, false);
    }
  }

  lemma {:induction false} ScaleByUnitAppend(num: Number, y: string)
    requires ScaleByUnit(num).Some?
    requires StartsComponent(y)
    ensures ScaleByUnit(num.(rest := num.rest + y)) == Some(ScaleByUnit(num).value.(rest := ScaleByUnit(num).value.rest + y))
  {
    var (name, rest) := UnitName(num.rest);
    var u := UnitOf(name).value;
    UnitNameAppend(num.rest, y);
    ScaleStep(num, name, rest, u);
    ScaleStep(num.(rest := num.rest + y), name, rest + y, u);
  }

  /** A component is read the same way when more text that starts a new
      component follows it; the extra text stays unread. */
  lemma {:induction false} ParseComponentAppend(x: string, y: string)
    requires x != "" && ParseComponent(x).Some?
    requires StartsComponent(y)
    ensures ParseComponent(x + y) == Some(ParseComponent(x).value.(rest := ParseComponent(x).value.rest + y))
  {
    var num := ScanNumber(x).value;
    assert (x + y)[0] == x[0];
    ScanNumberAppend(x, y);
    ScaleByUnitAppend(num, y);
  }

  /** One step of ParseComponents: the first component is added to the total. */
  lemma {:induction false} ComponentsStep(s: string, acc: nat, c: Component)
    requires acc <= Limit && s != "" && ParseComponent(s) == Some(c)
    ensures ParseComponents(s, acc) == if acc + c.nanos > Limit then None else ParseComponents(c.rest, acc + c.nanos)
  {
    assert ParseComponents(s, acc) == AddComponent(s, acc);
  }

  /** ParseComponents fails when the text in front is not a component. */
  lemma {:induction false} ComponentsStop(s: string, acc: nat)
    requires acc <= Limit && s != "" && ParseComponent(s).None?
    ensures ParseComponents(s, acc).None?
  {
    if s[0] == '.' || IsDigit(s[0]) {
      assert ParseComponents(s, acc) == AddComponent(s, acc);
    }
  }

  /** One step of parsing `x + y`: the first component `c` of `x` is read
      as it is from `x` alone, and parsing goes on with its rest followed
      by `y`. */
  lemma {:induction false} StepAppend(x: string, y: string, acc: nat, c: Component)
    requires acc <= Limit && x != "" && ParseComponents(x, acc).Some?
    requires ParseComponent(x) == Some(c)
    requires StartsComponent(y)
    ensures acc + c.nanos <= Limit
    ensures ParseComponents(x, acc) == ParseComponents(c.rest, acc + c.nanos)
    ensures ParseComponents(x + y, acc) == ParseComponents(c.rest + y, acc + c.nanos)
  {
    ComponentsStep(x, acc, c);
    var s, d := x + y, Component(c.nanos, c.rest + y);
    assert s != "" && ParseComponent(s) == Some(d) by {
      ParseComponentAppend(x, y);
    }
    ComponentsStep(s, acc, d);
  }

  /** Parsing is compositional: the components of `x + y` are those of `x`
      followed by those of `y`, so `y` adds its total to that of `x`. */
  lemma {:induction false} ParseComponentsAppend(x: string, y: string, acc: nat)
    requires acc <= Limit
    requires ParseComponents(x, acc).Some?
    requires StartsComponent(y)
    ensures ParseComponents(x + y, acc) == ParseComponents(y, ParseComponents(x, acc).value)
    decreases |x|
  {
    if x == "" {
      assert x + y == y;
    } else {
      if ParseComponent(x).None? {
        ComponentsStop(x, acc);
      }
      var c := ParseComponent(x).value;
      StepAppend(x, y, acc, c);
      ParseComponentsAppend(c.rest, y, acc + c.nanos);
    }
  }

  /** "0s" is one component worth nothing. */
  lemma {:induction false} ZeroSeconds(acc: nat)
    requires acc <= Limit
    ensures ParseComponents("0s", acc) == Some(acc)
  {
    assert "0s"[1..] == "s" && "s"[1..] == "";
    assert LeadingInt("0s", 0) == Some(Scanned(0, "s"));
    assert UnitName("s"[1..]) == ("", "");
    assert ['s'] + "" == "s";
    assert UnitName("s") == ("s", "");
    assert ParseComponent("0s") == Some(Component(0, ""));
  }

  /** "00s", what the bare "0" becomes with "0s" appended, is zero too. */
  lemma {:induction false} DoubleZeroSeconds()
    ensures ParseComponents("00s", 0) == Some(0)
  {
    assert "00s"[1..] == "0s" && "0s"[1..] == "s" && "s"[1..] == "";
    assert LeadingInt("00s", 0) == Some(Scanned(0, "s"));
    assert UnitName("s"[1..]) == ("", "");
    assert ['s'] + "" == "s";
    assert UnitName("s") == ("s", "");
    assert ParseComponent("00s") == Some(Component(0, ""));
  }

  /** The unsigned part of a duration keeps its total when "0s" follows it;
      the bare "0" becomes "00s", which is zero as well. */
  lemma {:induction false} BodyAppendZeroSeconds(body: string, total: nat)
    requires body == "0" ==> total == 0
    requires body != "0" ==> ParseComponents(body, 0) == Some(total)
    ensures ParseComponents(body + "0s", 0) == Some(total)
  {
    if body == "0" {
      assert body + "0s" == "00s";
      DoubleZeroSeconds();
    } else {
      ZeroSeconds(total);
      ParseComponentsAppend(body, "0s", 0);
    }
  }

  /** Appending "0s" after the sign changes nothing either. */
  lemma {:induction false} SignedAppendZeroSeconds(negative: bool, body: string)
    requires SignedDuration(negative, body).Some?
    ensures SignedDuration(negative, body + "0s") == SignedDuration(negative, body)
  {
    var total: nat := if body == "0" then 0 else ParseComponents(body, 0).value;
    BodyAppendZeroSeconds(body, total);
    assert body + "0s" != "0" && body + "0s" != "";
  }

  /** Appending "0s" to a duration ParseDuration accepts changes nothing. */
  lemma {:induction false} AppendZeroSeconds(s: string)
    requires ParseDuration(s).Some?
    ensures ParseDuration(s + "0s") == ParseDuration(s)
  {
    assert (s + "0s")[0] == s[0];
    if s[0] == '-' || s[0] == '+' {
      assert (s + "0s")[1..] == s[1..] + "0s";
      SignedAppendZeroSeconds(s[0] == '-', s[1..]);
    } else {
      SignedAppendZeroSeconds(false, s);
    }
  }
}

=== FILE: results.dfy ===
/** Failure-carrying values shared by the tracker's two packages.

    Go functions in the tracker return a value together with an `error`;
    on failure the value is the zero value of its type. `Ret` keeps both
    halves so that "the value is zeroed on error" can be stated. */
module Results {

  datatype Option<+T> = None | Some(value: T)

  /** The validation failures the parsers and the calorie guard report. */
  datatype ErrorKind =
    | FieldCount       // wrong number of comma-separated fields
    | StepsFormat      // the steps field is not a decimal integer
    | StepsRange       // the steps field is an integer <= 0
    | UnknownActivity  // the training label is neither known label
    | DurationFormat   // the duration field is not a duration
    | InvalidParams    // a non-positive input reached a calorie formula

  /** The message prefixes under which DayActionInfo wraps a failure with %w. */
  datatype Context = ParsingData | ComputingCalories

  /** An error is a failure of some kind, possibly wrapped in context prefixes. */
  datatype Error = Failure(kind: ErrorKind) | Wrapped(context: Context, cause: Error)

  /** The kind at the bottom of a chain of wrappings (what errors.Unwrap reaches). */
  function RootKind(e: Error): ErrorKind
  {
    match e
    case Failure(k) => k
    case Wrapped(_, cause) => RootKind(cause)
  }

  /** A Go multi-value return `(T, error)`; `err` is None exactly on success. */
  datatype Ret<T> = Ret(value: T, err: Option<Error>) {
    predicate Ok() { err.None? }
  }

  /** The return of a failed call: the zero value beside an unwrapped error. */
  function Fail<T>(zero: T, kind: ErrorKind): (r: Ret<T>)
    ensures !r.Ok() && RootKind(r.err.value) == kind && r.value == zero
  {
    Ret(zero, Some(Failure(kind)))
  }

  function Succeed<T>(v: T): (r: Ret<T>)
    ensures r.Ok() && r.value == v
  {
    Ret(v, None)
  }
}

=== FILE: scenarios.dfy ===
/** Records worked through the model: which check rejects each malformed
    one, and what the well-formed ones parse to. Five are sample strings of
    the tracker's demo driver: ",3456", "12:40:00, 3456", ",3456 Ходьба",
    "678,Бег,0h5m" and "something is wrong". Three are
    made up here to reach branches the samples miss: "5,1h3" needs the "0s"
    retry, "1234,Плавание,10m" has an unknown label, and "x,Плавание,10m"
    has both bad steps and an unknown label. Each record is named and
    written as its fields joined by commas. */
module Scenarios {
  import opened Results
  import opened Strings
  import opened Strconv
  import opened Durations
  import SpentCalories
  import DaySteps

  // ---- Fields of the sample records ----

  const Empty: string := ""
  const Clock: string := "12:40:00"
  const Steps3456: string := "3456"
  const PaddedSteps3456: string := " 3456"
  const Steps3456Walking: string := "3456 Ходьба"
  const Something: string := "something is wrong"
  const Steps678: string := "678"
  const Steps5: string := "5"
  const Steps1234: string := "1234"
  const NotANumber: string := "x"
  const Run: string := "Бег"
  const Swim: string := "Плавание"
  const FiveMinutesText: string := "0h5m"
  const TenMinutesText: string := "10m"
  const HourAndThreeText: string := "1h3"

  // ---- The sample records ----

  /** ",3456" */
  const DayEmptyRecord: string := Empty + "," + Steps3456
  /** "12:40:00, 3456" */
  const DayClockRecord: string := Clock + "," + PaddedSteps3456
  /** "5,1h3" */
  const DayRetryRecord: string := Steps5 + "," + HourAndThreeText
  /** ",3456 Ходьба" */
  const TrainingTwoFieldRecord: string := Empty + "," + Steps3456Walking
  /** "678,Бег,0h5m" */
  const TrainingRunRecord: string := Steps678 + "," + Run + "," + FiveMinutesText
  /** "1234,Плавание,10m" */
  const TrainingSwimRecord: string := Steps1234 + "," + Swim + "," + TenMinutesText
  /** "x,Плавание,10m" */
  const TrainingBadStepsRecord: string := NotANumber + "," + Swim + "," + TenMinutesText

  /** The named records spell the intended texts. */
  lemma {:induction false} RecordTexts()
    ensures DayEmptyRecord == ",3456"
    ensures DayClockRecord == "12:40:00, 3456"
    ensures DayRetryRecord == "5,1h3"
    ensures TrainingTwoFieldRecord == ",3456 Ходьба"
    ensures TrainingRunRecord == "678,Бег,0h5m"
    ensures TrainingSwimRecord == "1234,Плавание,10m"
    ensures TrainingBadStepsRecord == "x,Плавание,10m"
  {
  }

  // ---- Facts about the fields ----

  lemma {:induction false} NoCommas()
    ensures ',' !in Empty && ',' !in Clock && ',' !in Steps3456 && ',' !in PaddedSteps3456
    ensures ',' !in Steps3456Walking && ',' !in Something && ',' !in Steps678 && ',' !in Steps5
    ensures ',' !in Steps1234 && ',' !in NotANumber && ',' !in Run && ',' !in Swim
    ensures ',' !in FiveMinutesText && ',' !in TenMinutesText && ',' !in HourAndThreeText
  {
  }

  lemma {:induction false} EmptyIsNoNumber()
    ensures Atoi(TrimSpace(Empty)) == None
  {
  }

  lemma {:induction false} ClockIsNoNumber()
    ensures Atoi(TrimSpace(Clock)) == None
  {
    ClockIsTrimmed();
    ClockIsNotDigits();
  }

  lemma {:induction false} ClockIsTrimmed()
    ensures TrimSpace(Clock) == Clock
  {
    TrimSpaceOfTrimmed(Clock);
  }

  lemma {:induction false} ClockIsNotDigits()
    ensures Atoi(Clock) == None
  {
    assert Clock[0] == '1' && !IsDigit(Clock[2]);
    assert !AllDigits(Clock);
  }

  lemma {:induction false} WordIsNoNumber()
    ensures Atoi(TrimSpace(NotANumber)) == None
  {
    TrimSpaceOfTrimmed("x");
    assert !IsDigit("x"[0]);
  }

  lemma {:induction false} Reads678()
    ensures Atoi(TrimSpace(Steps678)) == Some(678)
  {
    TrimSpaceOfTrimmed("678");
    assert DecimalValue("6") == 6 by { assert "6"[..0] == ""; }
    assert DecimalValue("67") == 67 by { assert "67"[..1] == "6"; }
    assert DecimalValue("678") == 678 by { assert "678"[..2] == "67"; }
    AtoiUnsigned("678");
  }

  lemma {:induction false} Reads1234()
    ensures Atoi(TrimSpace(Steps1234)) == Some(1234)
  {
    TrimSpaceOfTrimmed("1234");
    assert DecimalValue("1") == 1 by { assert "1"[..0] == ""; }
    assert DecimalValue("12") == 12 by { assert "12"[..1] == "1"; }
    assert DecimalValue("123") == 123 by { assert "123"[..2] == "12"; }
    assert DecimalValue("1234") == 1234 by { assert "1234"[..3] == "123"; }
    AtoiUnsigned("1234");
  }

  lemma {:induction false} Reads5()
    ensures Atoi(TrimSpace(Steps5)) == Some(5)
  {
    TrimSpaceOfTrimmed("5");
    assert "5"[..0] == "";
  }

  lemma {:induction false} RunLabel()
    ensures TrimSpace(Run) == SpentCalories.Running
  {
    TrimSpaceOfTrimmed("Бег");
  }

  lemma {:induction false} SwimLabel()
    ensures !SpentCalories.IsActivity(TrimSpace(Swim))
  {
    SwimIsTrimmed();
    assert |Swim| == 8;
    UnknownLabel(Swim);
  }

  /** A label of neither known label's length is unknown. */
  lemma {:induction false} UnknownLabel(x: string)
    requires |x| != 3 && |x| != 6
    ensures !SpentCalories.IsActivity(x)
  {
    assert |SpentCalories.Running| == 3 && |SpentCalories.Walking| == 6;
  }

  lemma {:induction false} SwimIsTrimmed()
    ensures TrimSpace(Swim) == Swim
  {
    TrimSpaceOfTrimmed("Плавание");
  }

  /** "0h5m" is five minutes. */
  lemma {:induction false} FiveMinutes()
    ensures ParseDuration(TrimSpace(FiveMinutesText)) == Some(5 * Minute)
  {
    TrimSpaceOfTrimmed("0h5m");
    FiveMinutesParsed();
  }

  lemma {:induction false} FiveMinutesParsed()
    ensures ParseDuration(FiveMinutesText) == Some(5 * Minute)
  {
    NoHoursThen();
    FiveMinuteComponent();
    ComponentsStep("0h5m", 0, Component(0, "5m"));
    ComponentsStep("5m", 0, Component(5 * Minute, ""));
    assert ParseComponents("0h5m", 0) == Some(5 * Minute);
    assert "0h5m" != "0" && "0h5m"[0] == '0';
  }

  /** The first component of "0h5m" is zero hours. */
  lemma {:induction false} NoHoursThen()
    ensures ParseComponent("0h5m") == Some(Component(0, "5m"))
  {
    assert "0h5m"[1..] == "h5m" && "h5m"[1..] == "5m";
    assert LeadingInt("0h5m", 0) == Some(Scanned(0, "h5m"));
    assert UnitName("5m") == ("", "5m");
    assert UnitName("h5m") == (['h'] + "", "5m");
    assert ['h'] + "" == "h";
  }

  /** "5m" is one component of five minutes. */
  lemma {:induction false} FiveMinuteComponent()
    ensures ParseComponent("5m") == Some(Component(5 * Minute, ""))
  {
    assert "5m"[1..] == "m" && "m"[1..] == "";
    assert LeadingInt("5m", 0) == Some(Scanned(5, "m"));
    assert UnitName("") == ("", "");
    assert UnitName("m") == (['m'] + "", "");
    assert ['m'] + "" == "m";
  }

  /** "1h3" has no unit after its 3. */
  lemma {:induction false} HourAndThreeRejected()
    ensures ParseDuration(HourAndThreeText) == None
  {
    assert "1h3"[1..] == "h3" && "h3"[1..] == "3" && "3"[1..] == "";
    assert LeadingInt("1h3", 0) == Some(Scanned(1, "h3"));
    assert UnitName("3") == ("", "3");
    assert UnitName("h3") == (['h'] + "", "3");
    assert ['h'] + "" == "h";
    assert ParseComponent("1h3") == Some(Component(Hour, "3"));
    assert LeadingInt("3", 0) == Some(Scanned(3, ""));
    assert UnitName("") == ("", "");
    assert ParseComponent("3") == None;
  }

  /** "1h30s", the retry of "1h3", is an hour and thirty seconds. */
  lemma {:induction false} HourAndThirtySeconds()
    ensures ParseDuration(HourAndThreeText + "0s") == Some(Hour + 30 * Second)
  {
    assert HourAndThreeText + "0s" == "1h30s";
    HourAndThirtyParsed();
  }

  lemma {:induction false} HourAndThirtyParsed()
    ensures ParseDuration("1h30s") == Some(Hour + 30 * Second)
  {
    HourAndThirtyComponents();
    assert "1h30s" != "0" && "1h30s"[0] == '1';
  }

  lemma {:induction false} HourAndThirtyComponents()
    ensures ParseComponents("1h30s", 0) == Some(Hour + 30 * Second)
  {
    OneHourThen();
    ThirtySeconds();
    ComponentsStep("1h30s", 0, Component(Hour, "30s"));
    ComponentsStep("30s", Hour, Component(30 * Second, ""));
  }

  /** The first component of "1h30s" is one hour. */
  lemma {:induction false} OneHourThen()
    ensures ParseComponent("1h30s") == Some(Component(Hour, "30s"))
  {
    assert "1h30s"[1..] == "h30s" && "h30s"[1..] == "30s";
    assert LeadingInt("1h30s", 0) == Some(Scanned(1, "h30s"));
    assert UnitName("30s") == ("", "30s");
    assert UnitName("h30s") == (['h'] + "", "30s");
    assert ['h'] + "" == "h";
  }

  /** "30s" is one component of thirty seconds. */
  lemma {:induction false} ThirtySeconds()
    ensures ParseComponent("30s") == Some(Component(30 * Second, ""))
  {
    assert "30s"[1..] == "0s" && "0s"[1..] == "s" && "s"[1..] == "";
    assert LeadingInt("30s", 0) == Some(Scanned(30, "s"));
    assert UnitName("") == ("", "");
    assert UnitName("s") == (['s'] + "", "");
    assert ['s'] + "" == "s";
  }

  // ---- Day records ----

  /** ",3456": the steps field is empty. */
  lemma {:induction false} DayEmptySteps()
    ensures DaySteps.ParsePackage(DayEmptyRecord) == Fail(DaySteps.NoPackage, StepsFormat)
  {
    NoCommas();
    EmptyIsNoNumber();
    DaySteps.BadStepsRejected(Empty, Steps3456);
  }

  /** "12:40:00, 3456": the fields are swapped, so the steps are a clock time. */
  lemma {:induction false} DayClockSteps()
    ensures DaySteps.ParsePackage(DayClockRecord) == Fail(DaySteps.NoPackage, StepsFormat)
  {
    NoCommas();
    ClockIsNoNumber();
    DaySteps.BadStepsRejected(Clock, PaddedSteps3456);
  }

  /** "something is wrong": a single field. */
  lemma {:induction false} DayOneField()
    ensures DaySteps.ParsePackage(Something) == Fail(DaySteps.NoPackage, FieldCount)
  {
    NoCommas();
    CountAbsent(Something, ',');
  }

  /** "5,1h3": the direct parse fails and the retry reads "1h30s". */
  lemma {:induction false} DayRetry()
    ensures DaySteps.ParsePackage(DayRetryRecord) == Succeed(DaySteps.Package(5, Hour + 30 * Second))
  {
    NoCommas();
    DaySteps.ParsePackageFields(Steps5, HourAndThreeText);
    Reads5();
    RetryDuration();
    DayFieldsRead(Steps5, HourAndThreeText, 5, Hour + 30 * Second);
  }

  /** Fields that read as positive steps and a duration give that record. */
  lemma {:induction false} DayFieldsRead(p0: string, p1: string, steps: int, duration: int)
    requires Atoi(TrimSpace(p0)) == Some(steps) && steps > 0
    requires DaySteps.ParseDayDuration(TrimSpace(p1)) == Some(duration)
    ensures DaySteps.CheckFields(p0, p1) == Succeed(DaySteps.Package(steps, duration))
  {
  }

  /** The duration field of "5,1h3" is read by the retry. */
  lemma {:induction false} RetryDuration()
    ensures DaySteps.ParseDayDuration(TrimSpace(HourAndThreeText)) == Some(Hour + 30 * Second)
  {
    HourAndThreeTrimmed();
    DaySteps.ParseDayDurationIsRetry(HourAndThreeText);
    HourAndThirtySeconds();
  }

  lemma {:induction false} HourAndThreeTrimmed()
    ensures TrimSpace(HourAndThreeText) == HourAndThreeText && DaySteps.HasUnitLetter(HourAndThreeText)
  {
    TrimSpaceOfTrimmed("1h3");
    assert "1h3"[1] == 'h';
  }

  /** A day record that fails to parse gives the wrapped parsing error
      whatever the calculator computes. */
  lemma {:induction false} DayRecordsRejected(weight: real, height: real, sc: DaySteps.Calculator)
    ensures DaySteps.DayActionInfo(DayEmptyRecord, weight, height, sc)
      == Ret("", Some(Wrapped(ParsingData, Failure(StepsFormat))))
    ensures DaySteps.DayActionInfo(DayClockRecord, weight, height, sc)
      == Ret("", Some(Wrapped(ParsingData, Failure(StepsFormat))))
    ensures DaySteps.DayActionInfo(Something, weight, height, sc)
      == Ret("", Some(Wrapped(ParsingData, Failure(FieldCount))))
  {
    DayEmptySteps();
    DayClockSteps();
    DayOneField();
  }

  // ---- Training records ----

  /** "something is wrong": a single field. */
  lemma {:induction false} TrainingOneField()
    ensures SpentCalories.ParseTraining(Something) == Fail(SpentCalories.NoTraining, FieldCount)
  {
    NoCommas();
    CountAbsent(Something, ',');
  }

  /** ",3456 Ходьба": the second comma is missing, so there are two fields. */
  lemma {:induction false} TrainingTwoFields()
    ensures SpentCalories.ParseTraining(TrainingTwoFieldRecord) == Fail(SpentCalories.NoTraining, FieldCount)
  {
    NoCommas();
    SplitTwo(Empty, Steps3456Walking, ',');
  }

  /** "678,Бег,0h5m": a five-minute run of 678 steps. */
  lemma {:induction false} TrainingRun()
    ensures SpentCalories.ParseTraining(TrainingRunRecord)
      == Succeed(SpentCalories.Training(678, SpentCalories.Running, 5 * Minute))
  {
    NoCommas();
    SpentCalories.ParseTrainingFields(Steps678, Run, FiveMinutesText);
    Reads678();
    RunLabel();
    FiveMinutes();
  }

  /** The running formula at 678 steps, weight 84.6 and height 1.87 is
      0.029 * 84.6 * 0.570537 * 60 = 83.985328548, printed as "83.99". */
  lemma {:induction false} RunCaloriesText(t: SpentCalories.Training, weight: real, height: real)
    requires t.activity == SpentCalories.Running && t.steps == 678 && weight == 84.6 && height == 1.87
    ensures var calories := SpentCalories.CoefficientOf(t.activity) * weight * SpentCalories.Distance(t.steps, height) * 60.0;
      "Сожгли калорий: " + FormatFixed2(calories) == "Сожгли калорий: 83.99"
  {
    var calories := SpentCalories.CoefficientOf(t.activity) * weight * SpentCalories.Distance(t.steps, height) * 60.0;
    assert SpentCalories.Distance(t.steps, height) == 0.570537;
    assert calories == 83.985328548;
    assert RoundHalfEven(calories * 100.0) == 8399;
    assert NatToDigits(83) == "83";
    assert CentsText(8399) == "83.99";
  }

  /** A 678-step run's report at weight 84.6 and height 1.87 has five
      lines, the last of them showing 83.99 kilocalories. */
  lemma {:induction false} RunReportText(t: SpentCalories.Training, weight: real, height: real)
    requires t.activity == SpentCalories.Running && t.steps == 678 && t.duration > 0
    requires weight == 84.6 && height == 1.87
    ensures var lines := Split(SpentCalories.TrainingReport(t, weight, height).value, '\n');
      |lines| == 5 && lines[4] == "Сожгли калорий: 83.99"
  {
    SpentCalories.TrainingReportCalories(t, weight, height);
    RunCaloriesText(t, weight, height);
  }

  /** The run above yields a five-line report for the driver's weight and
      height, whose last line shows the running formula's kilocalories to
      two places. */
  lemma {:induction false} TrainingRunReported()
    ensures SpentCalories.TrainingInfo(TrainingRunRecord, 84.6, 1.87).Ok()
    ensures var lines := Split(SpentCalories.TrainingInfo(TrainingRunRecord, 84.6, 1.87).value, '\n');
      |lines| == 5 && lines[4] == "Сожгли калорий: 83.99"
  {
    TrainingRun();
    var t := SpentCalories.Training(678, SpentCalories.Running, 5 * Minute);
    assert SpentCalories.TrainingInfo(TrainingRunRecord, 84.6, 1.87) == SpentCalories.TrainingReport(t, 84.6, 1.87);
    RunReportText(t, 84.6, 1.87);
  }

  /** "1234,Плавание,10m": swimming is not a known activity. */
  lemma {:induction false} TrainingUnknownActivity()
    ensures SpentCalories.ParseTraining(TrainingSwimRecord) == Fail(SpentCalories.NoTraining, UnknownActivity)
  {
    NoCommas();
    Reads1234();
    SwimLabel();
    SpentCalories.LabelCheckedBeforeDuration(Steps1234, Swim, TenMinutesText);
  }

  /** "x,Плавание,10m": the bad steps are reported, not the bad label. */
  lemma {:induction false} TrainingStepsBeforeLabel()
    ensures SpentCalories.ParseTraining(TrainingBadStepsRecord) == Fail(SpentCalories.NoTraining, StepsFormat)
  {
    NoCommas();
    WordIsNoNumber();
    SpentCalories.StepsCheckedFirst(NotANumber, Swim, TenMinutesText);
  }
}

=== FILE: spentcalories.dfy ===
/** The training pipeline of package spentcalories: a record
    "<steps>,<activity>,<duration>" is parsed, the calories burnt are
    computed by the running or the walking formula, and a five-line report
    is rendered. Weight, height, distance, speed and calories are exact
    reals rather than float64 values. */
module SpentCalories {
  import opened Results
  import opened Strings
  import opened Strconv
  import opened Durations

  /** Declared by the package but used by none of its functions. */
  const LenStep: real := 0.65
  const MinInH: int := 60

  const MInKm: real := 1000.0
  const StepLengthCoefficient: real := 0.45
  const WalkingCaloriesCoefficient: real := 0.5
  const RunningCaloriesCoefficient: real := 0.029

  /** The two activity labels a record may carry. */
  const Running: string := "Бег"
  const Walking: string := "Ходьба"

  predicate IsActivity(name: string)
  {
    name == Running || name == Walking
  }

  /** A parsed training record: steps, activity label, duration in nanoseconds. */
  datatype Training = Training(steps: int, activity: string, duration: int)

  /** The zero tuple every failed parse returns. */
  const NoTraining: Training := Training(0, "", 0)

  /** parseTraining: exactly three comma-separated fields, checked in order:
      the field count, the steps integer, the activity label, the duration.
      Steps and duration are not checked for sign. */
  function ParseTraining(data: string): (r: Ret<Training>)
    ensures !r.Ok() ==> r.value == NoTraining && r.err.value.Failure?
    ensures r.Ok() ==> IsActivity(r.value.activity)
    ensures r.Ok() ==> MinInt64 <= r.value.steps <= MaxInt64
    ensures r.Ok() ==> MinInt64 <= r.value.duration <= MaxInt64
    ensures Count(data, ',') != 2 <==> (!r.Ok() && r.err.value.kind == FieldCount)
  {
    var parts := Split(data, ',');
    if |parts| != 3 then Fail(NoTraining, FieldCount) else CheckFields(parts[0], parts[1], parts[2])
  }

  /** The checks on the three fields, in the order the source makes them:
      the steps integer, the activity label, the duration. Each field is
      trimmed of white space first. */
  function CheckFields(p0: string, p1: string, p2: string): (r: Ret<Training>)
    ensures !r.Ok() ==> r.value == NoTraining && r.err.value.Failure?
    ensures Atoi(TrimSpace(p0)).None? ==> r == Fail(NoTraining, StepsFormat)
    ensures Atoi(TrimSpace(p0)).Some? && !IsActivity(TrimSpace(p1)) ==> r == Fail(NoTraining, UnknownActivity)
    ensures Atoi(TrimSpace(p0)).Some? && IsActivity(TrimSpace(p1)) && ParseDuration(TrimSpace(p2)).None?
      ==> r == Fail(NoTraining, DurationFormat)
    ensures r.Ok() <==> Atoi(TrimSpace(p0)).Some? && IsActivity(TrimSpace(p1)) && ParseDuration(TrimSpace(p2)).Some?
    ensures r.Ok() ==> r.value == Training(Atoi(TrimSpace(p0)).value, TrimSpace(p1), ParseDuration(TrimSpace(p2)).value)
  {
    match Atoi(TrimSpace(p0))
    case None => Fail(NoTraining, StepsFormat)
    case Some(steps) =>
      var activity := TrimSpace(p1);
      if activity != Running && activity != Walking then Fail(NoTraining, UnknownActivity)
      else
        match ParseDuration(TrimSpace(p2))
        case None => Fail(NoTraining, DurationFormat)
        case Some(duration) => Succeed(Training(steps, activity, duration))
  }

  /** A record made of three comma-free fields gets the field-by-field verdict. */
  lemma {:induction false} ParseTrainingFields(p0: string, p1: string, p2: string)
    requires ',' !in p0 && ',' !in p1 && ',' !in p2
    ensures ParseTraining(p0 + "," + p1 + "," + p2) == CheckFields(p0, p1, p2)
  {
    SplitThree(p0, p1, p2, ',');
  }

  /** Bad steps are reported before a bad label or a bad duration. */
  lemma {:induction false} StepsCheckedFirst(p0: string, p1: string, p2: string)
    requires ',' !in p0 && ',' !in p1 && ',' !in p2
    requires Atoi(TrimSpace(p0)).None?
    ensures ParseTraining(p0 + "," + p1 + "," + p2) == Fail(NoTraining, StepsFormat)
  {
    ParseTrainingFields(p0, p1, p2);
  }

  /** A bad label is reported before a bad duration. */
  lemma {:induction false} LabelCheckedBeforeDuration(p0: string, p1: string, p2: string)
    requires ',' !in p0 && ',' !in p1 && ',' !in p2
    requires Atoi(TrimSpace(p0)).Some? && !IsActivity(TrimSpace(p1))
    ensures ParseTraining(p0 + "," + p1 + "," + p2) == Fail(NoTraining, UnknownActivity)
  {
    ParseTrainingFields(p0, p1, p2);
  }

  /** A record rendered from its parts, with white space around each field,
      parses back to those parts. */
  lemma {:induction false} ParseTrainingRoundTrip(steps: int, name: string, text: string, duration: int,
                               a0: string, b0: string, a1: string, b1: string, a2: string, b2: string)
    requires MinInt64 <= steps <= MaxInt64
    requires IsActivity(name)
    requires ',' !in text && ParseDuration(text) == Some(duration)
    requires text == [] || (!IsSpace(text[0]) && !IsSpace(text[|text| - 1]))
    requires AllSpace(a0) && AllSpace(b0) && AllSpace(a1) && AllSpace(b1) && AllSpace(a2) && AllSpace(b2)
    requires ',' !in a0 && ',' !in b0 && ',' !in a1 && ',' !in b1 && ',' !in a2 && ',' !in b2
    ensures ParseTraining((a0 + Itoa(steps) + b0) + "," + (a1 + name + b1) + "," + (a2 + text + b2))
      == Succeed(Training(steps, name, duration))
  {
    DigitsField(steps, a0, b0);
    LabelField(name, a1, b1);
    PaddedField(a2, text, b2);
    CheckTrimmedFields(steps, name, text, duration, a0 + Itoa(steps) + b0, a1 + name + b1, a2 + text + b2);
    ParseTrainingFields(a0 + Itoa(steps) + b0, a1 + name + b1, a2 + text + b2);
  }

  /** Fields that trim to a rendered integer, a label and a duration are
      read as those. */
  lemma {:induction false} CheckTrimmedFields(steps: int, name: string, text: string, duration: int, f0: string, f1: string, f2: string)
    requires MinInt64 <= steps <= MaxInt64
    requires IsActivity(name)
    requires ParseDuration(text) == Some(duration)
    requires TrimSpace(f0) == Itoa(steps) && TrimSpace(f1) == name && TrimSpace(f2) == text
    ensures CheckFields(f0, f1, f2) == Succeed(Training(steps, name, duration))
  {
    AtoiItoa(steps);
  }

  lemma {:induction false} DigitsHaveNoComma(steps: int)
    ensures ',' !in Itoa(steps)
    ensures !IsSpace(Itoa(steps)[0]) && !IsSpace(Itoa(steps)[|Itoa(steps)| - 1])
  {
    var digits := Itoa(steps);
    assert forall i :: 0 <= i < |digits| ==> digits[i] != ',';
  }

  /** The rendered steps, padded, are a field that trims back to them. */
  lemma {:induction false} DigitsField(steps: int, a: string, b: string)
    requires AllSpace(a) && AllSpace(b) && ',' !in a && ',' !in b
    ensures TrimSpace(a + Itoa(steps) + b) == Itoa(steps) && ',' !in a + Itoa(steps) + b
  {
    DigitsHaveNoComma(steps);
    PaddedField(a, Itoa(steps), b);
  }

  /** A padded label is a field that trims back to it. */
  lemma {:induction false} LabelField(name: string, a: string, b: string)
    requires IsActivity(name)
    requires AllSpace(a) && AllSpace(b) && ',' !in a && ',' !in b
    ensures TrimSpace(a + name + b) == name && ',' !in a + name + b
  {
    assert ',' !in name;
    PaddedField(a, name, b);
  }

  /** A comma-free, trimmed core with white space around it is a field that
      trims to the core. */
  lemma {:induction false} PaddedField(pad: string, core: string, tail: string)
    requires AllSpace(pad) && AllSpace(tail) && ',' !in pad && ',' !in tail
    requires ',' !in core && (core == [] || (!IsSpace(core[0]) && !IsSpace(core[|core| - 1])))
    ensures TrimSpace(pad + core + tail) == core && ',' !in pad + core + tail
  {
    TrimSpacePadded(pad, core, tail);
  }

  /** distance: kilometres covered by `steps` steps of 0.45 * height metres. */
  function Distance(steps: int, height: real): (km: real)
    ensures steps > 0 && height > 0.0 ==> km > 0.0
    ensures steps == 0 || height == 0.0 ==> km == 0.0
  {
    steps as real * height * StepLengthCoefficient / MInKm
  }

  /** Distance is additive in the number of steps ... */
  lemma {:induction false} DistanceAdditiveInSteps(a: int, b: int, height: real)
    ensures Distance(a + b, height) == Distance(a, height) + Distance(b, height)
  {
  }

  /** ... and proportional to the height. */
  lemma {:induction false} DistanceProportionalToHeight(steps: int, k: real, height: real)
    ensures Distance(steps, k * height) == k * Distance(steps, height)
  {
  }

  /** meanSpeed: kilometres per hour, and 0 for a non-positive duration. */
  function MeanSpeed(steps: int, height: real, duration: int): (v: real)
    ensures duration <= 0 ==> v == 0.0
    ensures duration > 0 ==> v * Hours(duration) == Distance(steps, height)
    ensures duration > 0 && steps > 0 && height > 0.0 ==> v > 0.0
  {
    if duration <= 0 then 0.0 else Distance(steps, height) / Hours(duration)
  }

  /** The guard both calorie formulas share. */
  predicate ValidParams(steps: int, weight: real, height: real, duration: int)
  {
    steps > 0 && weight > 0.0 && height > 0.0 && duration > 0
  }

  /** speed * minutes is the distance times 60, whatever the duration. */
  lemma {:induction false} SpeedTimesMinutes(steps: int, height: real, duration: int)
    requires duration > 0
    ensures MeanSpeed(steps, height, duration) * Minutes(duration) == 60.0 * Distance(steps, height)
  {
    var v := MeanSpeed(steps, height, duration);
    assert v * Minutes(duration) == 60.0 * (v * Hours(duration));
  }

  /** Calories by `coefficient * weight * speed * minutes`, guarded. */
  function SpentCalories(coefficient: real, steps: int, weight: real, height: real, duration: int): (r: Ret<real>)
    requires coefficient > 0.0
    ensures !r.Ok() <==> !ValidParams(steps, weight, height, duration)
    ensures !r.Ok() ==> r.value == 0.0 && r.err == Some(Failure(InvalidParams))
    ensures r.Ok() ==> r.value == coefficient * weight * Distance(steps, height) * 60.0
    ensures r.Ok() ==> r.value > 0.0
  {
    if !ValidParams(steps, weight, height, duration) then Fail(0.0, InvalidParams)
    else
      var speed := MeanSpeed(steps, height, duration);
      SpeedTimesMinutes(steps, height, duration);
      var c := coefficient * weight * speed * Minutes(duration);
      assert c == coefficient * weight * (speed * Minutes(duration));
      assert c == coefficient * weight * Distance(steps, height) * 60.0;
      assert weight * Distance(steps, height) > 0.0;
      Succeed(c)
  }

  /** RunningSpentCalories: an error exactly when some input is not
      positive, otherwise a positive number that depends on the duration
      only through the guard. */
  function RunningSpentCalories(steps: int, weight: real, height: real, duration: int): (r: Ret<real>)
    ensures !r.Ok() <==> !ValidParams(steps, weight, height, duration)
    ensures !r.Ok() ==> r.value == 0.0 && r.err == Some(Failure(InvalidParams))
    ensures r.Ok() ==> r.value == RunningCaloriesCoefficient * weight * Distance(steps, height) * 60.0
    ensures r.Ok() ==> r.value > 0.0
  {
    SpentCalories(RunningCaloriesCoefficient, steps, weight, height, duration)
  }

  /** WalkingSpentCalories: the same guard and shape with the walking coefficient. */
  function WalkingSpentCalories(steps: int, weight: real, height: real, duration: int): (r: Ret<real>)
    ensures !r.Ok() <==> !ValidParams(steps, weight, height, duration)
    ensures !r.Ok() ==> r.value == 0.0 && r.err == Some(Failure(InvalidParams))
    ensures r.Ok() ==> r.value == WalkingCaloriesCoefficient * weight * Distance(steps, height) * 60.0
    ensures r.Ok() ==> r.value > 0.0
  {
    SpentCalories(WalkingCaloriesCoefficient, steps, weight, height, duration)
  }

  /** The two formulas differ only by their coefficient. */
  lemma {:induction false} WalkingIsScaledRunning(steps: int, weight: real, height: real, duration: int)
    ensures WalkingSpentCalories(steps, weight, height, duration).err
      == RunningSpentCalories(steps, weight, height, duration).err
    ensures WalkingSpentCalories(steps, weight, height, duration).value
      == RunningSpentCalories(steps, weight, height, duration).value * (0.5 / 0.029)
  {
  }

  /** Once the guard passes, a longer or shorter session burns the same. */
  lemma {:induction false} CaloriesIndependentOfDuration(steps: int, weight: real, height: real, d1: int, d2: int)
    requires d1 > 0 && d2 > 0
    ensures RunningSpentCalories(steps, weight, height, d1) == RunningSpentCalories(steps, weight, height, d2)
    ensures WalkingSpentCalories(steps, weight, height, d1) == WalkingSpentCalories(steps, weight, height, d2)
  {
  }

  /** The report's five lines: label, hours, distance, speed, calories. */
  function ReportLines(activity: string, hours: real, distance: real, speed: real, calories: real): seq<string>
  {
    [ "Тип тренировки: " + activity,
      "Длительность: " + FormatFixed2(hours) + " ч.",
      "Дистанция: " + FormatFixed2(distance) + " км.",
      "Скорость: " + FormatFixed2(speed) + " км/ч",
      "Сожгли калорий: " + FormatFixed2(calories) ]
  }

  /** The Sprintf of TrainingInfo: the five lines joined by newlines. */
  function Report(activity: string, hours: real, distance: real, speed: real, calories: real): string
  {
    Join(ReportLines(activity, hours, distance, speed, calories), '\n')
  }

  /** The calories TrainingInfo computes for a record of a known label: the
      formula its label names. */
  function Dispatch(t: Training, weight: real, height: real): Ret<real>
  {
    if t.activity == Running then RunningSpentCalories(t.steps, weight, height, t.duration)
    else WalkingSpentCalories(t.steps, weight, height, t.duration)
  }

  /** The coefficient of the formula a label names. */
  function CoefficientOf(activity: string): real
  {
    if activity == Running then RunningCaloriesCoefficient else WalkingCaloriesCoefficient
  }

  /** The calories of a label's formula, in closed form. */
  lemma {:induction false} DispatchValue(t: Training, weight: real, height: real)
    requires IsActivity(t.activity) && ValidParams(t.steps, weight, height, t.duration)
    ensures Dispatch(t, weight, height).value == CoefficientOf(t.activity) * weight * Distance(t.steps, height) * 60.0
  {
  }

  /** The part of TrainingInfo after the parse: the switch on the label, the
      calorie formula, and the report. Every error comes back beside the
      empty string. */
  function TrainingReport(t: Training, weight: real, height: real): (r: Ret<string>)
    ensures !r.Ok() ==> r.value == ""
    ensures !IsActivity(t.activity) ==> r.err == Some(Failure(UnknownActivity))
    ensures IsActivity(t.activity) && !ValidParams(t.steps, weight, height, t.duration)
      ==> r.err == Some(Failure(InvalidParams))
    ensures r.Ok() ==> IsActivity(t.activity) && ValidParams(t.steps, weight, height, t.duration)
    ensures IsActivity(t.activity) && ValidParams(t.steps, weight, height, t.duration) ==> r.Ok()
  {
    var calories :=
      if t.activity == Running then RunningSpentCalories(t.steps, weight, height, t.duration)
      else if t.activity == Walking then WalkingSpentCalories(t.steps, weight, height, t.duration)
      else Fail(0.0, UnknownActivity);
    if !calories.Ok() then Ret("", calories.err)
    else
      var dist := Distance(t.steps, height);
      var speed := MeanSpeed(t.steps, height, t.duration);
      Succeed(Report(t.activity, Hours(t.duration), dist, speed, calories.value))
  }

  /** TrainingInfo: parse, then report on the parsed record. A parse error
      comes back unchanged beside the empty string. */
  function TrainingInfo(data: string, weight: real, height: real): (r: Ret<string>)
    ensures !r.Ok() ==> r.value == ""
    ensures !ParseTraining(data).Ok() ==> r.err == ParseTraining(data).err
    ensures r.Ok() ==> ParseTraining(data).Ok()
    ensures r.Ok() ==> ValidParams(ParseTraining(data).value.steps, weight, height, ParseTraining(data).value.duration)
    ensures ParseTraining(data).Ok() ==>
      r.Ok() == ValidParams(ParseTraining(data).value.steps, weight, height, ParseTraining(data).value.duration)
  {
    var p := ParseTraining(data);
    if !p.Ok() then Ret("", p.err) else TrainingReport(p.value, weight, height)
  }

  /** TrainingInfo reports an unknown label only when the parse did: the
      `default` branch of its switch is never taken. */
  lemma {:induction false} UnknownActivityOnlyFromParse(data: string, weight: real, height: real)
    ensures var r := TrainingInfo(data, weight, height);
      r.err.Some? && RootKind(r.err.value) == UnknownActivity
      <==> ParseTraining(data).err == Some(Failure(UnknownActivity))
  {
  }

  /** A record with non-positive steps or duration parses, and then fails
      in the calorie guard. */
  lemma {:induction false} NonPositiveParsesButFails(data: string, weight: real, height: real)
    requires ParseTraining(data).Ok()
    requires ParseTraining(data).value.steps <= 0 || ParseTraining(data).value.duration <= 0
    ensures TrainingInfo(data, weight, height) == Ret("", Some(Failure(InvalidParams)))
  {
  }

  /** No line of the report contains a line break. */
  lemma {:induction false} ReportLinesSingleLine(activity: string, hours: real, distance: real, speed: real, calories: real)
    requires '\n' !in activity
    ensures var lines := ReportLines(activity, hours, distance, speed, calories);
      forall i :: 0 <= i < |lines| ==> '\n' !in lines[i]
  {
    var lines := ReportLines(activity, hours, distance, speed, calories);
    ReportCaptions();
    NoLineBreak(0, hours);
    NoLineBreak(0, distance);
    NoLineBreak(0, speed);
    NoLineBreak(0, calories);
    WithoutSeparator("Тип тренировки: ", activity, "", '\n');
    WithoutSeparator("Длительность: ", FormatFixed2(hours), " ч.", '\n');
    WithoutSeparator("Дистанция: ", FormatFixed2(distance), " км.", '\n');
    WithoutSeparator("Скорость: ", FormatFixed2(speed), " км/ч", '\n');
    WithoutSeparator("Сожгли калорий: ", FormatFixed2(calories), "", '\n');
    assert lines[0] == "Тип тренировки: " + activity + "";
    assert lines[4] == "Сожгли калорий: " + FormatFixed2(calories) + "";
  }

  /** The fixed text around the report's values holds no line break. */
  lemma {:induction false} ReportCaptions()
    ensures '\n' !in "Тип тренировки: " && '\n' !in "Длительность: " && '\n' !in " ч."
    ensures '\n' !in "Дистанция: " && '\n' !in " км." && '\n' !in "Скорость: " && '\n' !in " км/ч"
    ensures '\n' !in "Сожгли калорий: " && '\n' !in ""
  {
  }

  /** The report splits back into its five lines. */
  lemma {:induction false} ReportSplits(activity: string, hours: real, distance: real, speed: real, calories: real)
    requires '\n' !in activity
    ensures Split(Report(activity, hours, distance, speed, calories), '\n')
      == ReportLines(activity, hours, distance, speed, calories)
  {
    ReportLinesSingleLine(activity, hours, distance, speed, calories);
    SplitJoin(ReportLines(activity, hours, distance, speed, calories), '\n');
  }

  /** The report on a record of a known label with positive inputs is
      five lines: its label, then the fixed captions and units around the
      two-decimal renderings of its duration in hours, its distance, its
      mean speed and the calories of the formula its label names. */
  lemma {:induction false} TrainingReportLines(t: Training, weight: real, height: real)
    requires IsActivity(t.activity) && ValidParams(t.steps, weight, height, t.duration)
    ensures TrainingReport(t, weight, height).Ok()
    ensures Split(TrainingReport(t, weight, height).value, '\n')
      == ReportLines(t.activity, Hours(t.duration), Distance(t.steps, height),
           MeanSpeed(t.steps, height, t.duration), Dispatch(t, weight, height).value)
  {
    assert '\n' !in t.activity;
    ReportSplits(t.activity, Hours(t.duration), Distance(t.steps, height), MeanSpeed(t.steps, height, t.duration),
      Dispatch(t, weight, height).value);
  }

  /** The calories line of such a report renders the closed form
      coefficient * weight * distance * 60 of the record's label. */
  lemma {:induction false} TrainingReportCalories(t: Training, weight: real, height: real)
    requires IsActivity(t.activity) && ValidParams(t.steps, weight, height, t.duration)
    ensures var lines := Split(TrainingReport(t, weight, height).value, '\n');
      |lines| == 5
      && lines[4] == "Сожгли калорий: " + FormatFixed2(CoefficientOf(t.activity) * weight * Distance(t.steps, height) * 60.0)
  {
    TrainingReportLines(t, weight, height);
    CaloriesLine(t, weight, height);
  }

  lemma {:induction false} CaloriesLine(t: Training, weight: real, height: real)
    requires IsActivity(t.activity) && ValidParams(t.steps, weight, height, t.duration)
    ensures ReportLines(t.activity, Hours(t.duration), Distance(t.steps, height),
        MeanSpeed(t.steps, height, t.duration), Dispatch(t, weight, height).value)[4]
      == "Сожгли калорий: " + FormatFixed2(CoefficientOf(t.activity) * weight * Distance(t.steps, height) * 60.0)
  {
    DispatchValue(t, weight, height);
  }

  /** A successful TrainingInfo is the five-line report on the record it
      parsed. */
  lemma {:induction false} TrainingInfoLines(data: string, weight: real, height: real)
    ensures TrainingInfo(data, weight, height).Ok() ==>
      var t := ParseTraining(data).value;
      Split(TrainingInfo(data, weight, height).value, '\n')
        == ReportLines(t.activity, Hours(t.duration), Distance(t.steps, height),
             MeanSpeed(t.steps, height, t.duration), Dispatch(t, weight, height).value)
  {
    if TrainingInfo(data, weight, height).Ok() {
      var t := ParseTraining(data).value;
      TrainingReportLines(t, weight, height);
    }
  }
}

=== FILE: strconv.dfy ===
/** The parts of Go's `strconv` package the tracker relies on: Atoi, Itoa and
    two-decimal fixed-point rendering of a number (FormatFloat with 'f', 2).
    Go's `int` is taken to be 64 bits wide. */
module Strconv {
  import opened Results

  const MinInt64: int := -0x8000_0000_0000_0000
  const MaxInt64: int := 0x7FFF_FFFF_FFFF_FFFF

  predicate IsDigit(c: char)
  {
    '0' <= c <= '9'
  }

  predicate AllDigits(s: string)
  {
    forall i :: 0 <= i < |s| ==> IsDigit(s[i])
  }

  function DigitValue(c: char): (d: nat)
    requires IsDigit(c)
    ensures d < 10
  {
    (c as int) - ('0' as int)
  }

  function DigitChar(d: nat): (c: char)
    requires d < 10
    ensures IsDigit(c) && DigitValue(c) == d
  {
    (('0' as int) + d) as char
  }

  /** The number a string of decimal digits denotes, most significant first. */
  function DecimalValue(ds: string): nat
    requires AllDigits(ds)
    decreases |ds|
  {
    if |ds| == 0 then 0 else DecimalValue(ds[..|ds| - 1]) * 10 + DigitValue(ds[|ds| - 1])
  }

  /** 10^k. */
  function Pow10(k: nat): (p: nat)
    ensures p >= 1
  {
    if k == 0 then 1 else 10 * Pow10(k - 1)
  }

  /** Read from the front, a digit string is its first digit times the
      place value of the rest, plus the value of the rest. */
  lemma {:induction false} DecimalValueCons(c: char, ds: string)
    requires IsDigit(c) && AllDigits(ds)
    ensures AllDigits([c] + ds)
    ensures DecimalValue([c] + ds) == DigitValue(c) * Pow10(|ds|) + DecimalValue(ds)
    decreases |ds|
  {
    var s := [c] + ds;
    assert forall i :: 0 <= i < |s| ==> IsDigit(s[i]) by {
      assert forall i :: 1 <= i < |s| ==> s[i] == ds[i - 1];
    }
    if |ds| > 0 {
      var front, last := ds[..|ds| - 1], ds[|ds| - 1];
      assert s[..|s| - 1] == [c] + front && s[|s| - 1] == last;
      DecimalValueCons(c, front);
      ShiftPlace(DigitValue(c), Pow10(|front|), DecimalValue(front), DigitValue(last));
    }
  }

  lemma {:induction false} ShiftPlace(d: nat, p: nat, v: nat, e: nat)
    ensures (d * p + v) * 10 + e == d * (10 * p) + (v * 10 + e)
  {
  }

  /** The canonical decimal digits of `n`: no leading zero unless `n` is 0. */
  function NatToDigits(n: nat): (ds: string)
    ensures |ds| >= 1 && AllDigits(ds)
    ensures DecimalValue(ds) == n
    ensures ds[0] == '0' ==> n == 0
    decreases n
  {
    if n < 10 then [DigitChar(n)]
    else
      var front := NatToDigits(n / 10);
      var ds := front + [DigitChar(n % 10)];
      assert ds[..|ds| - 1] == front;
      ds
  }

  /** strconv.Itoa: decimal rendering with a leading '-' for negatives. */
  function Itoa(n: int): (s: string)
    ensures |s| >= 1
    ensures n < 0 <==> s[0] == '-'
    ensures forall i :: 0 <= i < |s| ==> IsDigit(s[i]) || (i == 0 && s[i] == '-')
  {
    if n < 0 then "-" + NatToDigits(-n) else NatToDigits(n)
  }

  /** strconv.Atoi: an optional '+' or '-' followed by one or more decimal
      digits whose value fits a 64-bit int; anything else (including the
      empty string, a lone sign, spaces or underscores) is an error. */
  function Atoi(s: string): (r: Option<int>)
    ensures r.Some? ==> MinInt64 <= r.value <= MaxInt64
    ensures r.Some? ==> |s| >= 1 && (IsDigit(s[0]) || s[0] == '+' || s[0] == '-')
    ensures r.Some? ==> forall i :: 1 <= i < |s| ==> IsDigit(s[i])
    ensures r.Some? ==> IsDigit(s[|s| - 1])
  {
    if |s| > 0 && (s[0] == '+' || s[0] == '-') then SignedValue(s[0] == '-', s[1..])
    else SignedValue(false, s)
  }

  /** The value of the digits after the sign, if they are one or more
      digits and the signed value fits a 64-bit int. */
  function SignedValue(negative: bool, digits: string): (r: Option<int>)
    ensures r.Some? ==> MinInt64 <= r.value <= MaxInt64
    ensures r.Some? ==> |digits| >= 1 && AllDigits(digits)
  {
    if |digits| == 0 || !AllDigits(digits) then None
    else
      var magnitude := DecimalValue(digits);
      var n: int := if negative then -(magnitude as int) else magnitude;
      if MinInt64 <= n <= MaxInt64 then Some(n) else None
  }

  /** Atoi reads back every 64-bit integer Itoa renders. */
  lemma {:induction false} AtoiItoa(n: int)
    requires MinInt64 <= n <= MaxInt64
    ensures Atoi(Itoa(n)) == Some(n)
  {
    var s := Itoa(n);
    if n < 0 {
      assert s[1..] == NatToDigits(-n);
    }
  }

  /** Atoi accepts exactly the optionally signed, non-empty digit strings whose
      value is in range, and then returns that value. */
  lemma {:induction false} AtoiDigits(sign: string, ds: string)
    requires sign == "" || sign == "+" || sign == "-"
    requires |ds| >= 1 && AllDigits(ds)
    ensures Atoi(sign + ds) ==
      var v: int := if sign == "-" then -(DecimalValue(ds) as int) else DecimalValue(ds);
      if MinInt64 <= v <= MaxInt64 then Some(v) else None
  {
    if sign == "" {
      assert sign + ds == ds;
      AtoiUnsigned(ds);
    } else {
      AtoiSigned(sign[0], ds);
      assert sign + ds == [sign[0]] + ds;
    }
  }

  lemma {:induction false} AtoiUnsigned(ds: string)
    requires |ds| >= 1 && AllDigits(ds)
    ensures Atoi(ds) == if DecimalValue(ds) <= MaxInt64 then Some(DecimalValue(ds) as int) else None
  {
    assert IsDigit(ds[0]);
  }

  lemma {:induction false} AtoiSigned(c: char, ds: string)
    requires c == '+' || c == '-'
    requires |ds| >= 1 && AllDigits(ds)
    ensures Atoi([c] + ds) ==
      var v: int := if c == '-' then -(DecimalValue(ds) as int) else DecimalValue(ds);
      if MinInt64 <= v <= MaxInt64 then Some(v) else None
  {
    var s := [c] + ds;
    var v: int := if c == '-' then -(DecimalValue(ds) as int) else DecimalValue(ds);
    assert SignedValue(c == '-', ds) == if MinInt64 <= v <= MaxInt64 then Some(v) else None;
    assert Atoi(s) == SignedValue(c == '-', ds) by {
      assert s[0] == c && s[1..] == ds;
    }
  }

  function Abs(x: real): real
  {
    if x < 0.0 then -x else x
  }

  /** Rounding to the nearest integer, ties to the even neighbour (the rule
      Go's strconv applies to exactly representable halves). */
  function RoundHalfEven(x: real): (k: nat)
    requires x >= 0.0
    ensures x - 0.5 <= k as real <= x + 0.5
    ensures k as real - x == 0.5 || x - k as real == 0.5 ==> k % 2 == 0
  {
    var f := x.Floor;
    var frac := x - f as real;
    if frac < 0.5 then f
    else if frac > 0.5 then f + 1
    else if f % 2 == 0 then f
    else f + 1
  }

  /** The hundredths `k` written as a decimal with two fractional digits. */
  function CentsText(k: nat): (s: string)
    ensures |s| >= 4 && s[|s| - 3] == '.'
    ensures forall i :: 0 <= i < |s| ==> IsDigit(s[i]) || i == |s| - 3
  {
    NatToDigits(k / 100) + "." + [DigitChar(k % 100 / 10), DigitChar(k % 10)]
  }

  /** Dropping the decimal point from CentsText(k) leaves the digits of `k`. */
  lemma {:induction false} CentsTextValue(k: nat)
    ensures var s := CentsText(k);
      var digits := s[..|s| - 3] + s[|s| - 2..];
      AllDigits(digits) && DecimalValue(digits) == k
  {
    var whole := NatToDigits(k / 100);
    var s := CentsText(k);
    var d1, d2 := DigitChar(k % 100 / 10), DigitChar(k % 10);
    var digits := s[..|s| - 3] + s[|s| - 2..];
    assert s[..|s| - 3] == whole;
    assert digits == (whole + [d1]) + [d2];
    assert (whole + [d1])[..|whole|] == whole;
    assert DecimalValue(whole + [d1]) == (k / 100) * 10 + k % 100 / 10;
    assert DecimalValue(digits) == ((k / 100) * 10 + k % 100 / 10) * 10 + k % 10;
  }

  /** FormatFloat(x, 'f', 2, 64) on the exact value `x`: a '-' for negatives,
      then the magnitude rounded to hundredths with two fractional digits. */
  function FormatFixed2(x: real): (s: string)
    ensures |s| >= 4 && s[|s| - 3] == '.'
    ensures x < 0.0 <==> s[0] == '-'
    ensures forall i :: 0 <= i < |s| ==> IsDigit(s[i]) || i == |s| - 3 || (i == 0 && s[i] == '-')
  {
    var sign := if x < 0.0 then "-" else "";
    sign + CentsText(RoundHalfEven(Abs(x) * 100.0))
  }

  /** The digits FormatFixed2 prints, read as hundredths, are within half a
      hundredth of the magnitude of `x`. */
  lemma {:induction false} FormatFixed2Value(x: real)
    ensures var s := FormatFixed2(x);
      var body := if x < 0.0 then s[1..] else s;
      var digits := body[..|body| - 3] + body[|body| - 2..];
      AllDigits(digits)
      && Abs(x) * 100.0 - 0.5 <= DecimalValue(digits) as real <= Abs(x) * 100.0 + 0.5
  {
    var cents := RoundHalfEven(Abs(x) * 100.0);
    var s := FormatFixed2(x);
    var body := if x < 0.0 then s[1..] else s;
    assert body == CentsText(cents);
    CentsTextValue(cents);
  }

  /** Neither rendering contains a line break. */
  lemma {:induction false} NoLineBreak(n: int, x: real)
    ensures '\n' !in Itoa(n) && '\n' !in FormatFixed2(x)
  {
    var s, t := Itoa(n), FormatFixed2(x);
    assert forall i :: 0 <= i < |s| ==> s[i] != '\n';
    assert forall i :: 0 <= i < |t| ==> t[i] != '\n';
  }
}

=== FILE: strings.dfy ===
/** The parts of Go's `strings` package the tracker relies on: splitting on
    a one-character separator, joining, and trimming white space. Strings
    are sequences of Unicode scalar values; Go works on UTF-8 bytes, which
    agrees with this view for valid UTF-8 input. */
module Strings {

  /** Number of occurrences of `c` in `s`. */
  function Count(s: string, c: char): nat
  {
    if |s| == 0 then 0 else (if s[0] == c then 1 else 0) + Count(s[1..], c)
  }

  /** strings.Split(s, string(sep)): the pieces between the occurrences of
      `sep`, so there is always one more piece than separators ("" gives [""]). */
  function Split(s: string, sep: char): (parts: seq<string>)
    ensures |parts| == Count(s, sep) + 1
    ensures forall i :: 0 <= i < |parts| ==> sep !in parts[i]
    decreases |s|
  {
    if |s| == 0 then [""]
    else
      var rest := Split(s[1..], sep);
      if s[0] == sep then [""] + rest
      else [[s[0]] + rest[0]] + rest[1..]
  }

  /** strings.Join(parts, string(sep)). */
  function Join(parts: seq<string>, sep: char): string
    decreases |parts|
  {
    if |parts| == 0 then ""
    else if |parts| == 1 then parts[0]
    else parts[0] + [sep] + Join(parts[1..], sep)
  }

  /** A string without `c` has no occurrences of it. */
  lemma {:induction false} CountAbsent(s: string, c: char)
    requires c !in s
    ensures Count(s, c) == 0
    decreases |s|
  {
    if |s| > 0 {
      assert s == [s[0]] + s[1..];
      CountAbsent(s[1..], c);
    }
  }

  /** Joining the pieces of a split gives back the original string. */
  lemma {:induction false} JoinSplit(s: string, sep: char)
    ensures Join(Split(s, sep), sep) == s
    decreases |s|
  {
    if |s| > 0 {
      var rest := Split(s[1..], sep);
      JoinSplit(s[1..], sep);
      if s[0] == sep {
        assert Split(s, sep) == [""] + rest;
        assert ([""] + rest)[1..] == rest;
      } else if |rest| == 1 {
        assert Split(s, sep) == [[s[0]] + rest[0]];
      } else {
        var parts := Split(s, sep);
        assert parts[1..] == rest[1..];
        assert Join(rest, sep) == rest[0] + [sep] + Join(rest[1..], sep);
        assert s == [s[0]] + s[1..];
      }
    }
  }

  /** A string without the separator splits into itself alone. */
  lemma {:induction false} SplitWithoutSeparator(p: string, sep: char)
    requires sep !in p
    ensures Split(p, sep) == [p]
    decreases |p|
  {
    if |p| > 0 {
      SplitWithoutSeparator(p[1..], sep);
      assert [p[0]] + p[1..] == p;
    }
  }

  /** Splitting stops at the first separator. */
  lemma {:induction false} SplitAtFirstSeparator(p: string, sep: char, t: string)
    requires sep !in p
    ensures Split(p + [sep] + t, sep) == [p] + Split(t, sep)
    decreases |p|
  {
    var s := p + [sep] + t;
    if |p| == 0 {
      assert s[1..] == t;
    } else {
      assert s[1..] == p[1..] + [sep] + t;
      SplitAtFirstSeparator(p[1..], sep, t);
      assert [p[0]] + p[1..] == p;
    }
  }

  /** Splitting a join of separator-free pieces gives back the pieces. */
  lemma {:induction false} SplitJoin(parts: seq<string>, sep: char)
    requires |parts| > 0
    requires forall i :: 0 <= i < |parts| ==> sep !in parts[i]
    ensures Split(Join(parts, sep), sep) == parts
    decreases |parts|
  {
    if |parts| == 1 {
      SplitWithoutSeparator(parts[0], sep);
    } else {
      SplitJoin(parts[1..], sep);
      SplitAtFirstSeparator(parts[0], sep, Join(parts[1..], sep));
      assert [parts[0]] + parts[1..] == parts;
    }
  }

  /** Pieces without `sep` make a text without `sep`. */
  lemma {:induction false} WithoutSeparator(prefix: string, s: string, suffix: string, sep: char)
    requires sep !in prefix && sep !in s && sep !in suffix
    ensures sep !in prefix + s + suffix
  {
  }

  /** A text framed by a prefix and a suffix is recovered by cutting them off. */
  lemma {:induction false} Unframe(prefix: string, s: string, suffix: string)
    ensures var line := prefix + s + suffix;
      line[..|prefix|] == prefix && line[|prefix|..|line| - |suffix|] == s
      && line[|line| - |suffix|..] == suffix
  {
  }

  /** Two separator-free pieces around one separator split back apart. */
  lemma {:induction false} SplitTwo(a: string, b: string, sep: char)
    requires sep !in a && sep !in b
    ensures Split(a + [sep] + b, sep) == [a, b]
  {
    SplitAtFirstSeparator(a, sep, b);
    SplitWithoutSeparator(b, sep);
  }

  /** Three separator-free pieces around two separators split back apart. */
  lemma {:induction false} SplitThree(a: string, b: string, c: string, sep: char)
    requires sep !in a && sep !in b && sep !in c
    ensures Split(a + [sep] + b + [sep] + c, sep) == [a, b, c]
  {
    assert a + [sep] + b + [sep] + c == a + [sep] + (b + [sep] + c);
    SplitAtFirstSeparator(a, sep, b + [sep] + c);
    SplitTwo(b, c, sep);
  }

  /** unicode.IsSpace: the characters Go's TrimSpace removes (the ASCII
      controls \t \n \v \f \r, the space, and the other Unicode White_Space
      characters). */
  predicate IsSpace(c: char)
  {
    || c == ' '
    || '\t' <= c <= '\r'
    || c == '\U{0085}' || c == '\U{00A0}' || c == '\U{1680}'
    || '\U{2000}' <= c <= '\U{200A}'
    || c == '\U{2028}' || c == '\U{2029}' || c == '\U{202F}'
    || c == '\U{205F}' || c == '\U{3000}'
  }

  predicate AllSpace(s: string)
  {
    forall i :: 0 <= i < |s| ==> IsSpace(s[i])
  }

  /** strings.TrimLeftFunc(s, unicode.IsSpace): the suffix of `s` that
      starts at its first non-space character. */
  function TrimLeft(s: string): (r: string)
    ensures |r| <= |s| && r == s[|s| - |r|..]
    ensures r == [] || !IsSpace(r[0])
    decreases |s|
  {
    if |s| > 0 && IsSpace(s[0]) then TrimLeft(s[1..]) else s
  }

  /** strings.TrimRightFunc(s, unicode.IsSpace): the prefix of `s` that
      ends at its last non-space character. */
  function TrimRight(s: string): (r: string)
    ensures |r| <= |s| && r == s[..|r|]
    ensures r == [] || !IsSpace(r[|r| - 1])
    decreases |s|
  {
    if |s| > 0 && IsSpace(s[|s| - 1]) then TrimRight(s[..|s| - 1]) else s
  }

  /** TrimLeft removes white space only: every character in front of the
      suffix it keeps is white space. */
  lemma {:induction false} TrimLeftDropsSpace(s: string)
    ensures forall i :: 0 <= i < |s| - |TrimLeft(s)| ==> IsSpace(s[i])
    decreases |s|
  {
    if |s| > 0 && IsSpace(s[0]) {
      TrimLeftDropsSpace(s[1..]);
      assert forall i :: 1 <= i < |s| ==> s[i] == s[1..][i - 1];
    }
  }

  /** TrimRight removes white space only: every character after the prefix
      it keeps is white space. */
  lemma {:induction false} TrimRightDropsSpace(s: string)
    ensures forall i :: |TrimRight(s)| <= i < |s| ==> IsSpace(s[i])
    decreases |s|
  {
    if |s| > 0 && IsSpace(s[|s| - 1]) {
      TrimRightDropsSpace(s[..|s| - 1]);
      assert forall i :: 0 <= i < |s| - 1 ==> s[i] == s[..|s| - 1][i];
    }
  }

  /** strings.TrimSpace: `s` without its leading and trailing white space. */
  function TrimSpace(s: string): (r: string)
    ensures r == [] || (!IsSpace(r[0]) && !IsSpace(r[|r| - 1]))
    ensures |r| <= |s|
  {
    TrimRight(TrimLeft(s))
  }

  /** A string that neither starts nor ends with white space is its own trim. */
  lemma {:induction false} TrimSpaceOfTrimmed(m: string)
    requires m == [] || (!IsSpace(m[0]) && !IsSpace(m[|m| - 1]))
    ensures TrimSpace(m) == m
  {
  }

  /** TrimLeft drops exactly a white-space prefix in front of a core that
      does not start with white space. */
  lemma {:induction false} TrimLeftPadded(p: string, t: string)
    requires AllSpace(p)
    requires t == [] || !IsSpace(t[0])
    ensures TrimLeft(p + t) == t
    decreases |p|
  {
    if |p| > 0 {
      assert (p + t)[1..] == p[1..] + t;
      TrimLeftPadded(p[1..], t);
    }
  }

  /** TrimRight drops exactly a white-space suffix behind a core that does
      not end with white space. */
  lemma {:induction false} TrimRightPadded(t: string, q: string)
    requires AllSpace(q)
    requires t == [] || !IsSpace(t[|t| - 1])
    ensures TrimRight(t + q) == t
    decreases |q|
  {
    if |q| > 0 {
      assert (t + q)[..|t + q| - 1] == t + q[..|q| - 1];
      TrimRightPadded(t, q[..|q| - 1]);
    }
  }

  /** TrimSpace removes exactly the white-space padding around a trimmed core. */
  lemma {:induction false} TrimSpacePadded(p: string, m: string, q: string)
    requires AllSpace(p) && AllSpace(q)
    requires m == [] || (!IsSpace(m[0]) && !IsSpace(m[|m| - 1]))
    ensures TrimSpace(p + m + q) == m
  {
    if m == [] {
      assert p + m + q == (p + q) + [];
      TrimLeftPadded(p + q, []);
    } else {
      assert p + m + q == p + (m + q);
      TrimLeftPadded(p, m + q);
      TrimRightPadded(m, q);
    }
  }

  /** Trimming twice is the same as trimming once. */
  lemma {:induction false} TrimSpaceIdempotent(s: string)
    ensures TrimSpace(TrimSpace(s)) == TrimSpace(s)
  {
    TrimSpaceOfTrimmed(TrimSpace(s));
  }
}
